=== FILE: README.md ===
# simple-3d-maze: a verified model of the game logic

This project models the game logic of the browser maze game in `main.js` (the
first version) and `main_v2.js` (the later version). It leaves out the 3D
scene and the canvas. What it does model:

* **Maze generation.** A randomized depth-first carver ("recursive
  backtracker") runs over a grid of rooms (odd, odd) and passage cells, using
  an explicit stack. The later version then opens `floor(W*H/15)` random
  interior cells, which adds loops.
* **Movement.** Key presses map to a step forward or back, or a quarter turn.
  A step is taken only onto an existing floor cell.
* **Fog of war.** After each move the 3x3 block around the player is
  revealed in the discovery grid. `updateMapStats` counts the explored and
  the traversable cells.
* **Gems (later version).** Rejection sampling places the gems, and it may
  put two gems on one cell. Collection uses `forEach` with `splice`, which
  skips the gem that follows a removed one.
* **Goal (later version).** The goal check stops the timer and updates the
  best time. The best time is replaced only by a strictly smaller one.
  `formatTime` renders times.
* **Setting up a round.** `restartGame` (first version) and `startGame`
  (later version).

Modelling conventions:

* Randomness is a parameter. `rand: nat -> Draw` supplies the values of
  successive `Math.random()` calls made by the game's own code, where
  `Draw` is a real in [0, 1). Each operation takes the index of its first
  draw and returns the index of the next unused one. Three.js draws from
  `Math.random()` too, for the ids of the objects and materials it creates,
  for example between maze generation and gem placement and after each gem.
  Those draws are not in `rand`. Statements such as "right after maze
  generation" count the game's own draws only.
* `Pick(r, n)` is `Math.floor(r * n)`.
* The grid size `W x H` is a parameter, required to be odd and at least 3.
  The game's own 31 x 21 are the constants `MAZE_WIDTH` and `MAZE_HEIGHT`.
* A key press is one atomic step:
  1. the pose update;
  2. then (later version) gem collection;
  3. then the reveal;
  4. then the goal check.

  The game runs steps 2 to 4 at the end of the move animation, and ignores
  keys until then.
* The timer is a `Tick` operation that receives the milliseconds since the
  round started. `elapsedTime` is `undefined` until the first tick, modelled
  as `Option<nat>`.
* `bestTime` is `Infinity` or a number of milliseconds.

The main results:

* Carving always terminates.
* Carving opens every room and keeps the border walls.
* Carving opens exactly `2N-1` cells for `N` rooms, and every open cell can
  be walked to from the start. Every open passage joins two open rooms, so
  the rooms and their `N-1` passages form a connected graph with one edge
  fewer than vertices: a spanning tree.
* Loops keep every room, the goal included, reachable from the start, and
  every key press keeps the player on such cells.
* Loop injection opens exactly the cells it draws.
* A step that was taken is undone by the opposite step.
* Revealing is idempotent and monotone.
* The explored count reaches the traversable count exactly when every floor
  cell has been seen.
* Gem collection conserves gems: the gems left plus the gems collected
  equal the gems before, value by value.
* The best time after a series of runs is the fastest run.
* `formatTime` reads back as minutes and seconds. Two times display alike
  exactly when they fall in the same second.
* Every key press keeps the game-state invariant.

## Model

| member | source | states |
|---|---|---|
| Oracle.Pick | main_v2.js:110 | `Math.floor(Math.random() * n)` is an index in `0..n-1` |
| Oracle.PickReachesEveryIndex | main_v2.js:120 | every index `0..n-1` is the pick of some draw, so no interior cell is out of reach of a random choice |
| Oracle.InteriorCell | main_v2.js:120-121 | two consecutive draws, x first and then y, choose a cell strictly inside the border; loop injection and gem placement (main_v2.js:163-164) both choose this way |
| Carving.Candidates | main_v2.js:104-108 | the `neighbors` list holds exactly the in-bounds rooms two cells away that are still walls, each with the passage between; it is empty exactly when no such room exists |
| Carving.CarveStep | main_v2.js:110-113 | carving to a neighbour opens exactly the chosen room and its passage (both walls before), so the open cells grow by two |
| Carving.RoomOpen | main_v2.js:102-116 | once the stack is empty, every room is open, by induction from (1,1) over rooms whose neighbours have no wall room left |
| Carving.CarveResult | main_v2.js:102-117 | at the end of carving, the open rooms are all the rooms, the border is wall and there are 2N-1 open cells for N rooms |
| Carving.Carve | main_v2.js:97-117 | the carver terminates and yields a perfect maze: walls and floor, border wall, every room open, every other open cell a passage between two open rooms, 2N-1 open cells for N rooms, and every open cell reachable from (1,1) by a walk over floor cells; it takes exactly one draw per room other than (1,1) |
| Carving.PushKeepsInvariant | main_v2.js:109-113 | pushing a newly carved room keeps the carver's invariant: stack rooms open, open cells 2*(open rooms)-1, passages join open rooms |
| Carving.InvariantAfterPush | main_v2.js:109-113 | a grid that adds exactly one open room, joined by one new passage, to an invariant state is an invariant state once that room is pushed |
| Carving.PopKeepsInvariant | main_v2.js:114-116 | popping a room with no wall neighbours keeps the carver's invariant |
| Carving.InitialReachable | main_v2.js:97-101 | when carving begins, the only open room (1,1) is where every walk starts |
| Carving.StepKeepsReachable | main_v2.js:109-113 | a carve step from a reachable room reaches the new room through the new passage, and every room reachable before still is |
| Grid.ReachableEntered | main_v2.js:118-125 | a walk reaches a cell other than the start through one of its four neighbours, which is floor |
| Grid.IsolatedCellUnreachable | main_v2.js:118-125 | a cell other than the start with four closed neighbours cannot be walked to, whether open or not |
| Carving.TreeReachable | main_v2.js:102-117 | once every open room is reachable, so is every passage, since each lies next to an open room |
| Loops.LoopCount | main_v2.js:118 | `Math.floor(W*H/15)` is the largest count whose fifteen-fold is at most the area |
| Loops.InjectLoops | main_v2.js:118-125 | loop injection makes `floor(W*H/15)` attempts of two draws each; the open cells afterwards are the open cells before plus exactly the attempted cells, open cells stay open and the border is untouched |
| Loops.LoopCellsAtMost | main_v2.js:118-124 | the attempts open at most `floor(W*H/15)` distinct cells |
| Generate.GenerateMazeV1 | main.js:65-99 | the first version yields a perfect maze (all rooms open, border wall, 2N-1 open cells, every open cell reachable from the start) and an all-unknown discovery grid, taking one draw per room other than (1,1) |
| Generate.GenerateMazeV2 | main_v2.js:88-126 | the later version yields a perfect maze, carved from the first draw, plus exactly the cells its `floor(W*H/15)` loop attempts draw right after carving, so at most that many more open cells; every room, the goal in particular, is open and reachable from the start, the border is wall, the discovery grid is all unknown, and the draws taken are one per room other than (1,1) plus two per attempt |
| Generate.TreePlusLoops | main_v2.js:118-125 | a perfect maze plus the cells loop injection opens is a maze with every room open and reachable, the border wall, and between 2N-1 and 2N-1 plus the attempt count open cells |
| Generate.LoopsKeepRooms | main_v2.js:118-125 | opening loop cells in a perfect maze keeps every room open and reachable, the goal included |
| Generate.GameDimensions | main_v2.js:1-2 | the game's 31 x 21 grid meets the carving requirements, puts the goal at (29,19) and gets 43 loop attempts |
| Movement.KeyActionV1 | main.js:142-163 | the first version acts on exactly the keys `w`, `s`, `a` and `d`; every other key is ignored |
| Movement.KeyActionV2 | main_v2.js:208-227 | the later version acts on exactly `w`, `s`, `a`, `d` and the four arrow keys; every other key is ignored |
| Movement.KeyActionV2Extends | main_v2.js:208-227 | the later key map agrees with the first on `w`, `s`, `a`, `d` and adds exactly the four arrow keys |
| Movement.Ahead | main_v2.js:209-214 | the `w` step for a heading in 0..3 is one cell along one axis; any other heading matches none of the tests and gives no displacement |
| Movement.Behind | main_v2.js:215-220 | the `s` step for a heading in 0..3 is one cell along one axis; any other heading gives no displacement |
| Movement.BehindIsNegatedAhead | main_v2.js:209-220 | for every heading the `s` step is the `w` step reversed |
| Movement.AheadTurnsClockwise | main_v2.js:209-214 | heading 0 to 3 is north, east, south, west: one heading further turns the `w` step a quarter clockwise |
| Movement.AheadDistinct | main_v2.js:209-214 | the four headings step in four different directions |
| Movement.JsRem4 | main_v2.js:222-225 | JavaScript's `% 4` keeps the sign of its operand: it lies in 0..3 for a non-negative operand and in -3..0 for a negative one, and differs from the operand by a multiple of four |
| Movement.Target | main_v2.js:204-226 | for a heading in 0..3 a step aims at a neighbouring cell with the heading kept; a turn aims at the same cell with a different heading in 0..3 |
| Movement.JsAt | main_v2.js:230 | an array lookup gives a value exactly for an index inside the array, and then the element there; otherwise `undefined` |
| Movement.Passable | main_v2.js:230 | `maze[targetY] && maze[targetY][targetX] === 0`, written with JavaScript's `undefined` lookups, holds exactly for a floor cell inside the grid |
| Movement.Move | main_v2.js:204-235 | the player only arrives on an existing floor cell; steps keep the heading, turns keep the position, the heading stays in 0..3 |
| Movement.StepTakenIff | main_v2.js:230-233 | a step is taken exactly when its target cell exists and is floor; otherwise the position stays |
| Movement.ForwardThenBackward | main_v2.js:209-220 | a step forward that was taken is undone by a step backward |
| Movement.BackwardThenForward | main_v2.js:209-220 | a step backward that was taken is undone by a step forward |
| Movement.TurnsCancel | main_v2.js:221-226 | a left turn and a right turn cancel out, in either order |
| Movement.TurnHeadings | main_v2.js:221-226 | a left turn subtracts a quarter and a right turn adds a quarter, modulo four |
| Movement.MoveAtMostOneCell | main_v2.js:209-233 | one key press moves the player at most one cell along one axis |
| Movement.MoveKeepsReachable | main_v2.js:229-233 | a key press keeps the player on cells that can be walked to from the start |
| Discovery.RevealCell | main_v2.js:275-278 | revealing one cell changes it only if it lies in the grid and is unseen, and then to the maze's value; every other cell keeps its value |
| Discovery.RevealFrom | main_v2.js:280-291 | the double loop from offset number k changes exactly the unseen in-grid cells of the block that the loop has still to visit, each to the maze's value |
| Discovery.Reveal | main_v2.js:275-291 | exactly the unseen cells of the 3x3 block around the player, clipped to the grid, change, each to the maze's value |
| Discovery.RevealIdempotent | main_v2.js:275-291 | revealing twice at the same cell is the same as revealing once |
| Discovery.RevealMonotone | main_v2.js:275-291 | a reveal keeps every seen cell, keeps the discovery grid consistent with the maze, and leaves the whole block seen |
| Discovery.MapStats | main_v2.js:334-343 | the explored count never exceeds the traversable count |
| Discovery.ExploredGrows | main_v2.js:334-343 | seeing more never lowers the explored count, and the traversable count depends on the maze alone |
| Discovery.FullyExplored | main_v2.js:334-343 | the explored count equals the traversable count exactly when every floor cell has been seen |
| Gems.FirstAcceptable | main_v2.js:163-166 | the do-while loop stops at the first attempt on a floor cell other than start and goal; all earlier attempts were rejected, and None means every attempt given was rejected |
| Gems.PlaceGems | main_v2.js:161-173 | `count` gems are placed, each on an interior floor cell other than start and goal, taking at least two draws each; None comes only when the loop of some gem, starting at a draw at or after the first, runs out of attempts |
| Gems.PlaceGemsFirstPicks | main_v2.js:161-166 | every placed gem is the first acceptable cell drawn by its own do-while loop, which starts at or after the first draw |
| Gems.PlaceGemsUnfold | main_v2.js:161-166 | a successful placement is the first gem's loop followed by a successful placement of the rest from the draw after it |
| Gems.PlaceGemsStacks | main_v2.js:161-173 | placement ignores earlier gems: when every attempt draws the same acceptable cell, all gems land on it |
| Gems.PlaceGemsAllowsDuplicates | main_v2.js:161-173 | a concrete 5x3 maze and draws that put all three gems on one cell |
| Gems.CollectFrom | main_v2.js:356-363 | the `forEach`/`splice` loop from index k: the gems left plus the gems counted are as many as the gems before |
| Gems.CollectFromKeepsPrefix | main_v2.js:356-363 | the `forEach`/`splice` loop from index k leaves the gems before k in place |
| Gems.CollectFromConserves | main_v2.js:356-363 | the loop from index k removes only gems on the player's cell and counts each removal: copies left plus copies collected equal copies before, value by value |
| Gems.CollectFromFinds | main_v2.js:356-363 | the loop from index k collects something exactly when a gem on the player's cell lies at k or later |
| Gems.CollectGems | main_v2.js:355-364 | gems left plus gems collected equal the gems before, value by value; only gems on the player's cell go; something is collected exactly when a gem lies there |
| Gems.RemainingWereThere | main_v2.js:355-364 | every gem left was there before |
| Gems.LoneGemCollected | main_v2.js:355-364 | a gem alone on the player's cell is always collected |
| Gems.CollectionSkipsNeighbour | main_v2.js:356-363 | of two gems on the player's cell, the splice skips the second, which is collected on the next visit |
| Timing.RecordIfBest | main_v2.js:374-379 | a record is set exactly when the elapsed time is defined and strictly below the best, which it then replaces; the best never gets worse |
| Timing.RecordNotRepeated | main_v2.js:374 | the same elapsed time never sets a record twice |
| Timing.BestIsFastest | main_v2.js:374-379 | after a series of runs the best time is the smaller of the old best and the fastest run |
| Timing.BestFromNothing | main_v2.js:19 | starting from `Infinity`, the best time is the fastest run |
| Timing.RecordScenario | main_v2.js:374-379 | runs of 5000, 6000 and 4000 ms: records on the first and third, best 4000 |
| Timing.Decimal | main_v2.js:418 | `String(n)` is a non-empty digit string without leading zero, one digit exactly below ten |
| Timing.DecimalRoundTrip | main_v2.js:418 | reading back `String(n)` gives `n` |
| Timing.PadStart2 | main_v2.js:418 | `padStart(2, '0')` pads with zeros up to two characters and keeps the original as a suffix |
| Timing.DecimalWidth | main_v2.js:418 | `String(n)` has at most two digits exactly when n is below 100 |
| Timing.Field | main_v2.js:418 | a padded field has at least two digits and reads back as its number; it is exactly two wide below 100, and a wider field has no leading zero |
| Timing.SecondsBelowMinute | main_v2.js:417 | the seconds shown are always below 60 |
| Timing.Clock | main_v2.js:418 | joining two fields with a colon gives a clock text: the colon third from the end, fields reading back as the minutes and seconds, minutes two digits wide exactly below 100 and without leading zero beyond |
| Timing.FormatTime | main_v2.js:414-419 | `--:--` for `Infinity`; otherwise two digit fields around the third-last character `:` that read back as the whole minutes and the seconds (below 60); the text is five characters exactly below 100 minutes and otherwise does not start with `0` |
| Timing.ClockReadsBack | main_v2.js:414-419 | a clock text shows one number of minutes and seconds only |
| Timing.FormatElapsed | main_v2.js:391 | an `undefined` elapsed time shows as `NaN:NaN`, the padded text of `NaN` in both fields; a defined one shows its whole minutes and seconds as a clock text |
| Timing.SecondsSplit | main_v2.js:416-417 | whole seconds are sixty times the minutes shown plus the seconds shown |
| Timing.SameTextSameSecond | main_v2.js:414-419 | two times with the same text fall in the same whole second |
| Timing.FormatTimeSameSecond | main_v2.js:414-419 | two times display the same exactly when they fall in the same whole second |
| Timing.FormatTimeExample | main_v2.js:414-419 | 75 500 ms shows as `01:15` and `Infinity` as `--:--` |
| GameV1.HandleKeyV1 | main.js:135-195 | an unknown key changes nothing; otherwise the pose moves, the block around it is revealed, and the goal message appears on the goal cell; the invariant holds, the maze is unchanged and nothing seen is forgotten |
| GameV1.KeyRevealsSurroundings | main.js:202-216 | after a move the block around the player is seen and the explored count has not gone down |
| GameV1.RestartV1 | main.js:257-279 | restart puts the player at (1,1) facing north in a new perfect maze (connected, 2N-1 open cells) with nothing seen and the message hidden, taking one draw per room other than (1,1) |
| GameV2.CheckGoal | main_v2.js:370-383 | on the goal with all gems the timer stops, the best is updated exactly on a strict improvement and the message carries the record flag; elsewhere nothing changes |
| GameV2.HandleKeyV2 | main_v2.js:201-259 | an unknown key changes nothing; otherwise move, collect, reveal, goal check in that order; the invariant holds, the maze is unchanged, nothing seen is forgotten, the collected count never falls and the best never worsens |
| GameV2.StepKeepsValid | main_v2.js:229-254 | moving, collecting and revealing keep the invariant (floor under the player, block seen, gems on acceptable cells, gems left plus collected equal `NUM_GEMS`) |
| GameV2.GoalEventIff | main_v2.js:370-383 | a key press stops the timer, changes the best or shows the message only on the goal cell with no gem left, and always does so there |
| GameV2.NoRecordAfterStop | main_v2.js:370-383 | once the timer has stopped, later arrivals at the goal show the message again but never as a new record |
| GameV2.KeyNeverForgets | main_v2.js:330-343 | a key press never lowers the explored count and never changes the traversable count |
| GameV2.DistanceToGoal | main_v2.js:351 | the distance shown is zero exactly on the goal cell |
| GameV2.DistanceStep | main_v2.js:351 | one key press changes the distance shown by at most one |
| GameV2.Tick | main_v2.js:401-412 | while the timer runs a tick sets the elapsed time; after `stopTimer` ticks change nothing; the invariant holds |
| GameV2.StartGameV2 | main_v2.js:48-86 | a new round in a freshly generated maze (every room open and reachable, the border wall): player at (1,1) facing north, no gems collected, the maze a perfect maze plus exactly the cells its loop attempts draw, the `NUM_GEMS` gems exactly those gem placement yields from the game's next draw after maze generation, each the first acceptable cell of its loop, exactly the start block seen, the timer running, the message hidden, and the best and last elapsed time kept; None exactly when that placement runs out of attempts |
| GameV2.NewRoundValid | main_v2.js:48-86 | the state a new round builds meets the game-state invariant, with exactly the block around the start seen |

## Left out

- The Three.js scene, the canvas drawing of the map, the DOM (gem counter, timer text, position text, modal title) and the camera animation. None of these affects the game state.
- The `isMoving` flag and the `requestAnimationFrame` animation. They only make keys pressed during a move animation do nothing, so a key press is modelled as one atomic step.
- `Date.now()`, `setInterval` and `clearInterval`. A tick takes the milliseconds since the round started as a parameter, and the interval is a boolean `timerRunning`.
- `localStorage`. The stored best time is a parameter of `StartGameV2`; the game reads it as a string and `<` converts it to a number, which the model takes as already done.
- The explored percentage `Math.round(explored / traversable * 100)`. It is floating point; the two counts it is computed from are modelled.
- Gems.PlaceGems: the game's do-while loop draws until it hits an acceptable cell, without any bound. The model follows `fuel` attempts per gem and returns None if none is acceptable, so a round the game would eventually set up may be None here for too small a `fuel`.
- Generate.GenerateMazeV2: states that every room is reachable, not every open cell. Loop injection may open a wall cell whose four neighbours are all walls, such as a cell with even coordinates between four closed passages; `Grid.IsolatedCellUnreachable` shows that such a cell cannot be walked to.
- Carving.Carve: that the carved rooms and passages have no cycle is not stated on its own. It follows from two proved facts by a standard graph-theory argument that the model does not prove: the maze is connected, and it has N-1 passages for N rooms.
- The `Math.random()` calls three.js makes for object ids (`THREE.MathUtils.generateUUID`, run by every mesh, geometry and material the game creates). They do not influence any game choice; they only shift which values of the page's random sequence the game's own calls receive, and the model indexes the game's own calls only.
- Grid sizes other than odd sizes of at least 3. The game only ever uses 31 x 21.
- `init`, which builds the scene and calls `generateMaze` (first version) or `startGame` (later version) once. Its game-state effect is the one of `RestartV1` and `StartGameV2`.

=== FILE: carving.dfy ===
/** The randomized depth-first ("recursive backtracker") carver that both
    versions of `generateMaze` run on an all-wall grid. It keeps an explicit
    stack of rooms; at each step it lists the rooms two cells away that are
    still walls, opens one chosen at random together with the passage cell
    between, and pushes it; with no such room it pops. */
module Carving {
  import opened Grid
  import opened Oracle

  /** One entry of the carver's `neighbors` list: the room two cells away and
      the passage cell between it and the current room. */
  datatype Candidate = Candidate(room: Pos, passage: Pos)

  /** `e` lies two cells from room `c` in one of the four axis directions. */
  predicate Adjacent(c: Pos, e: Candidate) {
    || (e.room == Pos(c.x - 2, c.y) && e.passage == Pos(c.x - 1, c.y))
    || (e.room == Pos(c.x + 2, c.y) && e.passage == Pos(c.x + 1, c.y))
    || (e.room == Pos(c.x, c.y - 2) && e.passage == Pos(c.x, c.y - 1))
    || (e.room == Pos(c.x, c.y + 2) && e.passage == Pos(c.x, c.y + 1))
  }

  /** No room next to `c` (in the grid's bounds) is still a wall. */
  ghost predicate NoWallNeighbour(g: Maze, w: int, h: int, c: Pos)
    requires HasShape(g, w, h) && Interior(w, h, c.x, c.y)
  {
    && (c.x > 1 ==> g[c.y][c.x - 2] != WALL)
    && (c.x < w - 2 ==> g[c.y][c.x + 2] != WALL)
    && (c.y > 1 ==> g[c.y - 2][c.x] != WALL)
    && (c.y < h - 2 ==> g[c.y + 2][c.x] != WALL)
  }

  /** The `neighbors` list of the carver for room `c`, in the game's order:
      left, right, up, down. */
  function Candidates(g: Maze, w: int, h: int, c: Pos): (ns: seq<Candidate>)
    requires ValidDims(w, h) && HasShape(g, w, h) && IsRoom(w, h, c.x, c.y)
    ensures forall e :: e in ns ==> Fits(g, w, h, c, e)
    ensures c.x > 1 && g[c.y][c.x - 2] == WALL ==> Candidate(Pos(c.x - 2, c.y), Pos(c.x - 1, c.y)) in ns
    ensures c.x < w - 2 && g[c.y][c.x + 2] == WALL ==> Candidate(Pos(c.x + 2, c.y), Pos(c.x + 1, c.y)) in ns
    ensures c.y > 1 && g[c.y - 2][c.x] == WALL ==> Candidate(Pos(c.x, c.y - 2), Pos(c.x, c.y - 1)) in ns
    ensures c.y < h - 2 && g[c.y + 2][c.x] == WALL ==> Candidate(Pos(c.x, c.y + 2), Pos(c.x, c.y + 1)) in ns
    ensures |ns| == 0 <==> NoWallNeighbour(g, w, h, c)
  {
    NeighbourRooms(w, h, c);
    var left := Offer(c.x > 1 && g[c.y][c.x - 2] == WALL, Candidate(Pos(c.x - 2, c.y), Pos(c.x - 1, c.y)));
    var right := Offer(c.x < w - 2 && g[c.y][c.x + 2] == WALL, Candidate(Pos(c.x + 2, c.y), Pos(c.x + 1, c.y)));
    var up := Offer(c.y > 1 && g[c.y - 2][c.x] == WALL, Candidate(Pos(c.x, c.y - 2), Pos(c.x, c.y - 1)));
    var down := Offer(c.y < h - 2 && g[c.y + 2][c.x] == WALL, Candidate(Pos(c.x, c.y + 2), Pos(c.x, c.y + 1)));
    assert forall e :: e in left ==> Fits(g, w, h, c, e);
    assert forall e :: e in right ==> Fits(g, w, h, c, e);
    assert forall e :: e in up ==> Fits(g, w, h, c, e);
    assert forall e :: e in down ==> Fits(g, w, h, c, e);
    var ns := left + right + up + down;
    assert |ns| == |left| + |right| + |up| + |down|;
    assert forall e :: e in ns ==> e in left || e in right || e in up || e in down;
    ns
  }

  /** `e` is a room two cells from `c` that is still a wall. */
  predicate Fits(g: Maze, w: int, h: int, c: Pos, e: Candidate)
    requires HasShape(g, w, h)
  {
    Adjacent(c, e) && IsRoom(w, h, e.room.x, e.room.y) && g[e.room.y][e.room.x] == WALL
  }

  /** One `if (...) neighbors.push(...)` of the carver. */
  function Offer(ok: bool, e: Candidate): (r: seq<Candidate>)
    ensures forall e' :: e' in r <==> ok && e' == e
    ensures |r| == 0 <==> !ok
  {
    if ok then [e] else []
  }

  /** The rooms two cells away from a room, where they exist, are rooms. */
  lemma NeighbourRooms(w: int, h: int, c: Pos)
    requires ValidDims(w, h) && IsRoom(w, h, c.x, c.y)
    ensures c.x > 1 ==> IsRoom(w, h, c.x - 2, c.y)
    ensures c.x < w - 2 ==> IsRoom(w, h, c.x + 2, c.y)
    ensures c.y > 1 ==> IsRoom(w, h, c.x, c.y - 2)
    ensures c.y < h - 2 ==> IsRoom(w, h, c.x, c.y + 2)
  {
  }

  /** The shape carving keeps: every open cell is interior and is either a
      room or a passage whose two rooms are both open. */
  ghost predicate PassagesJoinRooms(g: Maze, w: int, h: int)
    requires HasShape(g, w, h)
  {
    forall y, x {:trigger OpenAt(g, w, h, x, y)} :: OpenAt(g, w, h, x, y) ==>
      && Interior(w, h, x, y)
      && (|| (x % 2 == 1 && y % 2 == 1)
          || (x % 2 == 0 && y % 2 == 1 && g[y][x - 1] == OPEN && g[y][x + 1] == OPEN)
          || (x % 2 == 1 && y % 2 == 0 && g[y - 1][x] == OPEN && g[y + 1][x] == OPEN))
  }

  /** Open rooms that have left the stack have no walled room next to them. */
  ghost predicate Finished(g: Maze, w: int, h: int, stack: seq<Pos>)
    requires HasShape(g, w, h)
  {
    forall y, x {:trigger OpenAt(g, w, h, x, y)} ::
      IsRoom(w, h, x, y) && OpenAt(g, w, h, x, y) && Pos(x, y) !in stack ==>
        NoWallNeighbour(g, w, h, Pos(x, y))
  }

  ghost predicate StackOnOpenRooms(g: Maze, w: int, h: int, stack: seq<Pos>)
    requires HasShape(g, w, h)
  {
    forall i :: 0 <= i < |stack| ==>
      IsRoom(w, h, stack[i].x, stack[i].y) && g[stack[i].y][stack[i].x] == OPEN
  }

  /** `maze[ny][nx] = 0; maze[wy][wx] = 0;`: one carve step opens exactly two
      cells, the new room and the passage to it, and both were walls. */
  function CarveStep(g: Maze, w: int, h: int, c: Pos, e: Candidate): (r: Maze)
    requires ValidDims(w, h) && HasShape(g, w, h) && IsBinary(g, w, h)
    requires PassagesJoinRooms(g, w, h)
    requires IsRoom(w, h, c.x, c.y)
    requires Adjacent(c, e) && IsRoom(w, h, e.room.x, e.room.y) && g[e.room.y][e.room.x] == WALL
    ensures HasShape(r, w, h)
    ensures InBounds(w, h, e.passage.x, e.passage.y) && g[e.passage.y][e.passage.x] == WALL
    ensures OpenCells(r, w, h) == OpenCells(g, w, h) + {e.room, e.passage}
    ensures |OpenCells(r, w, h)| == |OpenCells(g, w, h)| + 2
    ensures forall y, x :: InBounds(w, h, x, y) ==>
              r[y][x] == if Pos(x, y) == e.room || Pos(x, y) == e.passage then OPEN else g[y][x]
  {
    var g1 := Set(g, w, h, e.room.x, e.room.y, OPEN);
    var r := Set(g1, w, h, e.passage.x, e.passage.y, OPEN);
    PassageWasWall(g, w, h, c, e);
    CarveStepCells(g, w, h, e, g1, r);
    r
  }

  /** A passage next to a walled room cannot be open yet. */
  lemma PassageWasWall(g: Maze, w: int, h: int, c: Pos, e: Candidate)
    requires ValidDims(w, h) && HasShape(g, w, h) && IsBinary(g, w, h)
    requires PassagesJoinRooms(g, w, h)
    requires IsRoom(w, h, c.x, c.y)
    requires Adjacent(c, e) && IsRoom(w, h, e.room.x, e.room.y) && g[e.room.y][e.room.x] == WALL
    ensures InBounds(w, h, e.passage.x, e.passage.y) && !IsRoom(w, h, e.passage.x, e.passage.y)
    ensures g[e.passage.y][e.passage.x] == WALL
  {
    var x, y := e.passage.x, e.passage.y;
    assert InBounds(w, h, x, y);
    assert OpenAt(g, w, h, x, y) == (g[y][x] == OPEN);
    if e.room == Pos(c.x - 2, c.y) || e.room == Pos(c.x + 2, c.y) {
      assert x % 2 == 0 && y % 2 == 1;
    } else {
      assert x % 2 == 1 && y % 2 == 0;
    }
  }

  /** After a carve step the grid is still binary, nothing was closed, and
      the only newly opened room is the chosen one. */
  lemma CarveStepOpens(g: Maze, w: int, h: int, c: Pos, e: Candidate)
    requires ValidDims(w, h) && HasShape(g, w, h) && IsBinary(g, w, h)
    requires PassagesJoinRooms(g, w, h)
    requires IsRoom(w, h, c.x, c.y)
    requires Adjacent(c, e) && IsRoom(w, h, e.room.x, e.room.y) && g[e.room.y][e.room.x] == WALL
    ensures var r := CarveStep(g, w, h, c, e);
      && IsBinary(r, w, h) && OnlyOpens(g, r, w, h)
      && r[e.room.y][e.room.x] == OPEN
      && (forall y, x :: IsRoom(w, h, x, y) && r[y][x] == OPEN && g[y][x] != OPEN ==> Pos(x, y) == e.room)
  {
    PassageWasWall(g, w, h, c, e);
  }

  /** After a carve step the open cells still have the carved shape. */
  lemma CarveStepShape(g: Maze, w: int, h: int, c: Pos, e: Candidate)
    requires ValidDims(w, h) && HasShape(g, w, h) && IsBinary(g, w, h)
    requires PassagesJoinRooms(g, w, h)
    requires IsRoom(w, h, c.x, c.y) && g[c.y][c.x] == OPEN
    requires Adjacent(c, e) && IsRoom(w, h, e.room.x, e.room.y) && g[e.room.y][e.room.x] == WALL
    ensures PassagesJoinRooms(CarveStep(g, w, h, c, e), w, h)
  {
    OpeningKeepsShape(g, CarveStep(g, w, h, c, e), w, h, c, e);
  }

  lemma OpeningKeepsShape(g: Maze, r: Maze, w: int, h: int, c: Pos, e: Candidate)
    requires ValidDims(w, h) && HasShape(g, w, h) && HasShape(r, w, h)
    requires PassagesJoinRooms(g, w, h)
    requires IsRoom(w, h, c.x, c.y) && g[c.y][c.x] == OPEN
    requires Adjacent(c, e) && IsRoom(w, h, e.room.x, e.room.y)
    requires forall y, x :: InBounds(w, h, x, y) ==>
               r[y][x] == if Pos(x, y) == e.room || Pos(x, y) == e.passage then OPEN else g[y][x]
    ensures PassagesJoinRooms(r, w, h)
  {
    assert OnlyOpens(g, r, w, h);
    forall y, x | OpenAt(r, w, h, x, y)
      ensures && Interior(w, h, x, y)
              && (|| (x % 2 == 1 && y % 2 == 1)
                  || (x % 2 == 0 && y % 2 == 1 && r[y][x - 1] == OPEN && r[y][x + 1] == OPEN)
                  || (x % 2 == 1 && y % 2 == 0 && r[y - 1][x] == OPEN && r[y + 1][x] == OPEN))
    {
      if Pos(x, y) == e.room {
      } else if Pos(x, y) == e.passage {
        PassageOfStep(r, w, h, c, e);
      } else {
        assert OpenAt(g, w, h, x, y);
        OldCellKeepsShape(g, r, w, h, x, y);
      }
    }
  }

  lemma PassageOfStep(r: Maze, w: int, h: int, c: Pos, e: Candidate)
    requires ValidDims(w, h) && HasShape(r, w, h)
    requires IsRoom(w, h, c.x, c.y) && r[c.y][c.x] == OPEN
    requires Adjacent(c, e) && IsRoom(w, h, e.room.x, e.room.y) && r[e.room.y][e.room.x] == OPEN
    ensures var x, y := e.passage.x, e.passage.y;
      && Interior(w, h, x, y)
      && (|| (x % 2 == 0 && y % 2 == 1 && r[y][x - 1] == OPEN && r[y][x + 1] == OPEN)
          || (x % 2 == 1 && y % 2 == 0 && r[y - 1][x] == OPEN && r[y + 1][x] == OPEN))
  {
  }

  lemma OldCellKeepsShape(g: Maze, r: Maze, w: int, h: int, x: int, y: int)
    requires HasShape(g, w, h) && HasShape(r, w, h) && OnlyOpens(g, r, w, h)
    requires PassagesJoinRooms(g, w, h) && OpenAt(g, w, h, x, y)
    ensures && Interior(w, h, x, y)
            && (|| (x % 2 == 1 && y % 2 == 1)
                || (x % 2 == 0 && y % 2 == 1 && r[y][x - 1] == OPEN && r[y][x + 1] == OPEN)
                || (x % 2 == 1 && y % 2 == 0 && r[y - 1][x] == OPEN && r[y + 1][x] == OPEN))
  {
  }

  lemma CarveStepCells(g: Maze, w: int, h: int, e: Candidate, g1: Maze, r: Maze)
    requires HasShape(g, w, h)
    requires InBounds(w, h, e.room.x, e.room.y) && InBounds(w, h, e.passage.x, e.passage.y)
    requires e.room != e.passage
    requires g[e.room.y][e.room.x] == WALL && g[e.passage.y][e.passage.x] == WALL
    requires g1 == Set(g, w, h, e.room.x, e.room.y, OPEN)
    requires r == Set(g1, w, h, e.passage.x, e.passage.y, OPEN)
    ensures e.room !in OpenCells(g, w, h) && e.passage !in OpenCells(g, w, h)
    ensures OpenCells(r, w, h) == OpenCells(g, w, h) + {e.room, e.passage}
    ensures |OpenCells(r, w, h)| == |OpenCells(g, w, h)| + 2
  {
    OpenCellsMember(g, w, h, e.room);
    OpenCellsMember(g, w, h, e.passage);
    OpenCellsAfterOpen(g, w, h, e.room.x, e.room.y);
    OpenCellsAfterOpen(g1, w, h, e.passage.x, e.passage.y);
    var s := OpenCells(g, w, h);
    assert OpenCells(r, w, h) == s + {e.room} + {e.passage};
    assert |s + {e.room}| == |s| + 1;
    assert e.passage !in s + {e.room};
  }

  /** One carve step opens one more room, so fewer rooms are left walled. */
  lemma CarveStepRooms(g: Maze, w: int, h: int, c: Pos, e: Candidate)
    requires ValidDims(w, h) && HasShape(g, w, h) && IsBinary(g, w, h)
    requires PassagesJoinRooms(g, w, h)
    requires IsRoom(w, h, c.x, c.y)
    requires Adjacent(c, e) && IsRoom(w, h, e.room.x, e.room.y) && g[e.room.y][e.room.x] == WALL
    ensures var r := CarveStep(g, w, h, c, e);
      && |OpenRooms(r, w, h)| == |OpenRooms(g, w, h)| + 1
      && WallRooms(r, w, h) < WallRooms(g, w, h)
  {
    var r := CarveStep(g, w, h, c, e);
    PassageWasWall(g, w, h, c, e);
    var before := OpenRooms(g, w, h);
    forall p ensures p in OpenRooms(r, w, h) <==> p in before + {e.room}
    {
      OpenRoomsMember(r, w, h, p);
      OpenRoomsMember(g, w, h, p);
    }
    assert OpenRooms(r, w, h) == before + {e.room};
    OpenRoomsMember(g, w, h, e.room);
    assert |before + {e.room}| == |before| + 1;
    forall p ensures p in WallRooms(r, w, h) ==> p in WallRooms(g, w, h)
    {
      WallRoomsMember(r, w, h, p);
      WallRoomsMember(g, w, h, p);
    }
    WallRoomsMember(g, w, h, e.room);
    WallRoomsMember(r, w, h, e.room);
  }

  /** Starting from an open (1,1), if no open room has a walled neighbour
      then every room is open: the rooms form a connected lattice. */
  lemma {:induction false} RoomOpen(g: Maze, w: int, h: int, x: int, y: int)
    requires ValidDims(w, h) && HasShape(g, w, h) && IsBinary(g, w, h)
    requires g[1][1] == OPEN
    requires Finished(g, w, h, [])
    requires IsRoom(w, h, x, y)
    ensures g[y][x] == OPEN
    decreases x + y
  {
    if x > 1 {
      RoomOpen(g, w, h, x - 2, y);
      assert Pos(x - 2, y) !in [] && OpenAt(g, w, h, x - 2, y);
      assert NoWallNeighbour(g, w, h, Pos(x - 2, y));
    } else if y > 1 {
      RoomOpen(g, w, h, x, y - 2);
      assert Pos(x, y - 2) !in [] && OpenAt(g, w, h, x, y - 2);
      assert NoWallNeighbour(g, w, h, Pos(x, y - 2));
    }
  }

  lemma EmptyGridHasNoOpenCells(w: nat, h: nat)
    ensures OpenCells(Fill(w, h, WALL), w, h) == {}
    ensures OpenRooms(Fill(w, h, WALL), w, h) == {}
  {
    var g := Fill(w, h, WALL);
    forall p ensures p !in OpenCells(g, w, h) && p !in OpenRooms(g, w, h)
    {
      OpenCellsMember(g, w, h, p);
      OpenRoomsMember(g, w, h, p);
    }
  }

  /** The grid carving begins from: all walls except the start room (1,1). */
  lemma InitialGrid(w: int, h: int, g: Maze)
    requires ValidDims(w, h)
    requires g == Set(Fill(w, h, WALL), w, h, 1, 1, OPEN)
    ensures IsBinary(g, w, h) && PassagesJoinRooms(g, w, h)
    ensures OpenCells(g, w, h) == {Pos(1, 1)} && OpenRooms(g, w, h) == {Pos(1, 1)}
  {
    var g0 := Fill(w, h, WALL);
    EmptyGridHasNoOpenCells(w, h);
    OpenCellsAfterOpen(g0, w, h, 1, 1);
    forall p ensures p in OpenRooms(g, w, h) <==> p == Pos(1, 1)
    {
      OpenRoomsMember(g, w, h, p);
      OpenRoomsMember(g0, w, h, p);
    }
  }

  /** What holds of the grid and the stack between two iterations of the
      carving loop: stack entries are open rooms, the open cells have the
      carved shape, rooms off the stack are done, and the open cells number
      two per open room less one (every step added a room and a passage). */
  ghost predicate CarveInvariant(g: Maze, w: int, h: int, stack: seq<Pos>)
  {
    && HasShape(g, w, h) && IsBinary(g, w, h)
    && PassagesJoinRooms(g, w, h)
    && InBounds(w, h, 1, 1) && g[1][1] == OPEN
    && StackOnOpenRooms(g, w, h, stack)
    && Finished(g, w, h, stack)
    && |OpenCells(g, w, h)| == 2 * |OpenRooms(g, w, h)| - 1
  }

  lemma PushKeepsInvariant(g: Maze, w: int, h: int, stack: seq<Pos>, e: Candidate)
    requires ValidDims(w, h) && CarveInvariant(g, w, h, stack) && |stack| > 0
    requires e in Candidates(g, w, h, stack[|stack| - 1])
    ensures CarveInvariant(CarveStep(g, w, h, stack[|stack| - 1], e), w, h, stack + [e.room])
    ensures WallRooms(CarveStep(g, w, h, stack[|stack| - 1], e), w, h) < WallRooms(g, w, h)
    ensures |OpenRooms(CarveStep(g, w, h, stack[|stack| - 1], e), w, h)| == |OpenRooms(g, w, h)| + 1
  {
    var c := stack[|stack| - 1];
    assert IsRoom(w, h, c.x, c.y) && g[c.y][c.x] == OPEN;
    var r := CarveStep(g, w, h, c, e);
    CarveStepOpens(g, w, h, c, e);
    CarveStepShape(g, w, h, c, e);
    CarveStepRooms(g, w, h, c, e);
    InvariantAfterPush(g, r, w, h, stack, e.room);
  }

  /** The carver's invariant after pushing `room`, from what a carve step
      guarantees about the new grid `r`. */
  lemma InvariantAfterPush(g: Maze, r: Maze, w: int, h: int, stack: seq<Pos>, room: Pos)
    requires CarveInvariant(g, w, h, stack) && |stack| > 0
    requires HasShape(r, w, h) && IsBinary(r, w, h) && OnlyOpens(g, r, w, h)
    requires IsRoom(w, h, room.x, room.y) && r[room.y][room.x] == OPEN
    requires forall y, x :: IsRoom(w, h, x, y) && r[y][x] == OPEN && g[y][x] != OPEN ==> Pos(x, y) == room
    requires PassagesJoinRooms(r, w, h)
    requires |OpenRooms(r, w, h)| == |OpenRooms(g, w, h)| + 1
    requires |OpenCells(r, w, h)| == |OpenCells(g, w, h)| + 2
    ensures CarveInvariant(r, w, h, stack + [room])
  {
    var stack' := stack + [room];
    assert stack'[..|stack'| - 1] == stack;
    FinishedAfterStep(g, r, w, h, stack');
    assert StackOnOpenRooms(r, w, h, stack');
  }

  lemma PopKeepsInvariant(g: Maze, w: int, h: int, stack: seq<Pos>)
    requires ValidDims(w, h) && CarveInvariant(g, w, h, stack) && |stack| > 0
    requires Candidates(g, w, h, stack[|stack| - 1]) == []
    ensures CarveInvariant(g, w, h, stack[..|stack| - 1])
  {
    var c := stack[|stack| - 1];
    var stack' := stack[..|stack| - 1];
    forall y, x | IsRoom(w, h, x, y) && OpenAt(g, w, h, x, y) && Pos(x, y) !in stack'
      ensures NoWallNeighbour(g, w, h, Pos(x, y))
    {
      if Pos(x, y) != c {
        assert stack == stack' + [c];
        assert Pos(x, y) !in stack;
      }
    }
  }

  /** A perfect maze: walls and floor, the outer ring wall, every room open,
      every other open cell a passage between two open rooms, 2N-1 open
      cells for N rooms (so N-1 passages), and every open cell reachable
      from the start. Connected, with one passage fewer than rooms, the
      rooms and passages form a spanning tree. */
  ghost predicate PerfectMaze(g: Maze, w: int, h: int)
  {
    && HasShape(g, w, h) && IsBinary(g, w, h)
    && BorderIsWall(g, w, h)
    && RoomsOpen(g, w, h)
    && PassagesJoinRooms(g, w, h)
    && |OpenCells(g, w, h)| == 2 * |Rooms(w, h)| - 1
    && AllReachable(g, w, h)
  }

  /** The carving loop of `generateMaze`, consuming one draw from `rand`
      (starting at index `next`) for every step that opens a room, so one
      draw per room other than (1,1). The result is a perfect maze. */
  method Carve(w: int, h: int, rand: Stream, next: nat) returns (g: Maze, used: nat)
    requires ValidDims(w, h)
    ensures PerfectMaze(g, w, h)
    ensures used == next + |Rooms(w, h)| - 1
  {
    g := Set(Fill(w, h, WALL), w, h, 1, 1, OPEN);
    InitialGrid(w, h, g);
    InitialReachable(w, h, g);
    var stack := [Pos(1, 1)];
    used := next;
    while |stack| > 0
      invariant CarveInvariant(g, w, h, stack)
      invariant RoomsReachable(g, w, h)
      invariant used == next + |OpenRooms(g, w, h)| - 1
      decreases WallRooms(g, w, h), |stack|
    {
      var c := stack[|stack| - 1];
      var ns := Candidates(g, w, h, c);
      if |ns| > 0 {
        var e := ns[Pick(rand(used), |ns|)];
        used := used + 1;
        PushKeepsInvariant(g, w, h, stack, e);
        StepKeepsReachable(g, w, h, c, e);
        g := CarveStep(g, w, h, c, e);
        stack := stack + [e.room];
      } else {
        PopKeepsInvariant(g, w, h, stack);
        stack := stack[..|stack| - 1];
      }
    }
    CarveResult(g, w, h);
    TreeReachable(g, w, h);
  }

  /** At the start only (1,1) is open, and it is where every walk begins. */
  lemma InitialReachable(w: int, h: int, g: Maze)
    requires ValidDims(w, h)
    requires g == Set(Fill(w, h, WALL), w, h, 1, 1, OPEN)
    ensures RoomsReachable(g, w, h)
  {
    InitialGrid(w, h, g);
    assert IsWalk(g, w, h, [Start()]);
    forall y, x | IsRoom(w, h, x, y) && OpenAt(g, w, h, x, y)
      ensures Reachable(g, w, h, Pos(x, y))
    {
      OpenRoomsMember(g, w, h, Pos(x, y));
      assert [Start()][0] == Pos(x, y);
    }
  }

  /** A carve step from a reachable room reaches the new room through the
      new passage, and opening cells loses no walk. */
  lemma StepKeepsReachable(g: Maze, w: int, h: int, c: Pos, e: Candidate)
    requires ValidDims(w, h) && HasShape(g, w, h) && IsBinary(g, w, h)
    requires PassagesJoinRooms(g, w, h)
    requires IsRoom(w, h, c.x, c.y) && g[c.y][c.x] == OPEN
    requires Adjacent(c, e) && IsRoom(w, h, e.room.x, e.room.y) && g[e.room.y][e.room.x] == WALL
    requires RoomsReachable(g, w, h)
    ensures RoomsReachable(CarveStep(g, w, h, c, e), w, h)
  {
    var r := CarveStep(g, w, h, c, e);
    CarveStepOpens(g, w, h, c, e);
    assert OpenAt(g, w, h, c.x, c.y);
    ReachableWidens(g, r, w, h, c);
    assert Touching(c, e.passage) && Touching(e.passage, e.room);
    ReachableStep(r, w, h, c, e.passage);
    ReachableStep(r, w, h, e.passage, e.room);
    forall y, x | IsRoom(w, h, x, y) && OpenAt(r, w, h, x, y)
      ensures Reachable(r, w, h, Pos(x, y))
    {
      if Pos(x, y) != e.room {
        assert OpenAt(g, w, h, x, y);
        ReachableWidens(g, r, w, h, Pos(x, y));
      }
    }
  }

  /** When every open room is reachable, so is every passage: it lies next
      to an open room. */
  lemma TreeReachable(g: Maze, w: int, h: int)
    requires ValidDims(w, h) && HasShape(g, w, h)
    requires PassagesJoinRooms(g, w, h) && RoomsReachable(g, w, h)
    ensures AllReachable(g, w, h)
  {
    forall y, x | OpenAt(g, w, h, x, y) ensures Reachable(g, w, h, Pos(x, y)) {
      if x % 2 == 1 && y % 2 == 1 {
        assert IsRoom(w, h, x, y);
      } else if x % 2 == 0 {
        assert IsRoom(w, h, x - 1, y) && OpenAt(g, w, h, x - 1, y);
        ReachableStep(g, w, h, Pos(x - 1, y), Pos(x, y));
      } else {
        assert IsRoom(w, h, x, y - 1) && OpenAt(g, w, h, x, y - 1);
        ReachableStep(g, w, h, Pos(x, y - 1), Pos(x, y));
      }
    }
  }

  lemma CarveResult(g: Maze, w: int, h: int)
    requires ValidDims(w, h) && CarveInvariant(g, w, h, [])
    ensures BorderIsWall(g, w, h) && RoomsOpen(g, w, h)
    ensures OpenRooms(g, w, h) == Rooms(w, h)
    ensures |OpenCells(g, w, h)| == 2 * |Rooms(w, h)| - 1
  {
    forall y, x | IsRoom(w, h, x, y) ensures g[y][x] == OPEN {
      RoomOpen(g, w, h, x, y);
    }
    forall p ensures p in OpenRooms(g, w, h) <==> p in Rooms(w, h) {
      OpenRoomsMember(g, w, h, p);
      RoomsMember(w, h, p);
    }
    assert OpenRooms(g, w, h) == Rooms(w, h);
    forall y, x | InBounds(w, h, x, y) && !Interior(w, h, x, y) ensures g[y][x] == WALL {
      assert OpenAt(g, w, h, x, y) == (g[y][x] == OPEN);
    }
  }

  /** Opening cells keeps `Finished` for rooms that stay off the stack. */
  lemma FinishedAfterStep(g: Maze, g': Maze, w: int, h: int, stack: seq<Pos>)
    requires HasShape(g, w, h) && HasShape(g', w, h)
    requires IsBinary(g, w, h) && IsBinary(g', w, h) && OnlyOpens(g, g', w, h)
    requires forall y, x :: IsRoom(w, h, x, y) && g'[y][x] == OPEN && g[y][x] != OPEN ==> Pos(x, y) in stack
    requires |stack| > 0
    requires Finished(g, w, h, stack[..|stack| - 1])
    ensures Finished(g', w, h, stack)
  {
    forall y, x | IsRoom(w, h, x, y) && OpenAt(g', w, h, x, y) && Pos(x, y) !in stack
      ensures NoWallNeighbour(g', w, h, Pos(x, y))
    {
      assert Pos(x, y) !in stack[..|stack| - 1];
      assert OpenAt(g, w, h, x, y);
    }
  }
}

=== FILE: discovery.dfy ===
/** The fog-of-war part of `update2DMap` and the counts of `updateMapStats`.
    The discovery grid holds -1 for an unseen cell and the maze's own value
    for a seen one; each reveal uncovers the 3x3 block around the player,
    clipped to the grid. */
module Discovery {
  import opened Grid

  /** (x, y) lies in the 3x3 block centred on (px, py). */
  predicate Near(px: int, py: int, x: int, y: int)
  {
    -1 <= x - px <= 1 && -1 <= y - py <= 1
  }

  /** Every seen cell shows the maze's value there. */
  ghost predicate Consistent(d: Maze, m: Maze, w: int, h: int)
    requires HasShape(d, w, h) && HasShape(m, w, h)
  {
    forall y, x :: InBounds(w, h, x, y) && d[y][x] != UNKNOWN ==> d[y][x] == m[y][x]
  }

  /** Every cell seen in `d` is still seen, with the same value, in `d'`. */
  ghost predicate KeepsKnown(d: Maze, d': Maze, w: int, h: int)
    requires HasShape(d, w, h) && HasShape(d', w, h)
  {
    forall y, x :: InBounds(w, h, x, y) && d[y][x] != UNKNOWN ==> d'[y][x] == d[y][x]
  }

  /** `if (discoveredMaze[y][x] === -1) discoveredMaze[y][x] = maze[y][x]`
      for a cell that exists. */
  function RevealCell(d: Maze, m: Maze, w: int, h: int, x: int, y: int): (r: Maze)
    requires HasShape(d, w, h) && HasShape(m, w, h)
    ensures HasShape(r, w, h)
    ensures forall j, i :: InBounds(w, h, i, j) ==>
              r[j][i] == if i == x && j == y && d[j][i] == UNKNOWN then m[j][i] else d[j][i]
  {
    if InBounds(w, h, x, y) && d[y][x] == UNKNOWN then Set(d, w, h, x, y, m[y][x]) else d
  }

  /** The offsets (dx, dy) of the 3x3 block are visited row by row, offset
      number k being (k % 3 - 1, k / 3 - 1); `Pending` holds of the cells
      whose offset has number k or more. */
  predicate Pending(px: int, py: int, k: int, x: int, y: int)
  {
    Near(px, py, x, y) && (y - py + 1) * 3 + (x - px + 1) >= k
  }

  /** The double loop over the block from offset number k on. */
  function RevealFrom(d: Maze, m: Maze, w: int, h: int, px: int, py: int, k: nat): (r: Maze)
    requires HasShape(d, w, h) && HasShape(m, w, h) && k <= 9
    ensures HasShape(r, w, h)
    ensures forall y, x :: InBounds(w, h, x, y) ==>
              r[y][x] == if Pending(px, py, k, x, y) && d[y][x] == UNKNOWN then m[y][x] else d[y][x]
    decreases 9 - k
  {
    if k == 9 then d
    else
      var d' := RevealCell(d, m, w, h, px + k % 3 - 1, py + k / 3 - 1);
      var r := RevealFrom(d', m, w, h, px, py, k + 1);
      RevealFromStep(d, d', r, m, w, h, px, py, k);
      r
  }

  /** Offset number k is the one cell that is pending from k but not from
      k + 1. */
  lemma PendingStep(px: int, py: int, k: nat, x: int, y: int)
    requires k < 9
    ensures Pending(px, py, k, x, y) <==>
              Pending(px, py, k + 1, x, y) || (x == px + k % 3 - 1 && y == py + k / 3 - 1)
  {
  }

  /** One round of the double loop: revealing offset k and then the offsets
      after it reveals the offsets from k on. */
  lemma RevealFromStep(d: Maze, d': Maze, r: Maze, m: Maze, w: int, h: int, px: int, py: int, k: nat)
    requires HasShape(d, w, h) && HasShape(d', w, h) && HasShape(r, w, h) && HasShape(m, w, h) && k < 9
    requires d' == RevealCell(d, m, w, h, px + k % 3 - 1, py + k / 3 - 1)
    requires forall y, x :: InBounds(w, h, x, y) ==>
               r[y][x] == if Pending(px, py, k + 1, x, y) && d'[y][x] == UNKNOWN then m[y][x] else d'[y][x]
    ensures forall y, x :: InBounds(w, h, x, y) ==>
              r[y][x] == if Pending(px, py, k, x, y) && d[y][x] == UNKNOWN then m[y][x] else d[y][x]
  {
    forall y, x | InBounds(w, h, x, y)
      ensures r[y][x] == if Pending(px, py, k, x, y) && d[y][x] == UNKNOWN then m[y][x] else d[y][x]
    {
      PendingStep(px, py, k, x, y);
    }
  }

  /** The reveal of `update2DMap`: first the player's own cell, then the 3x3
      block around it, each cell clipped to the grid. Exactly the unseen
      cells of the clipped block change, each to the maze's value. */
  function Reveal(d: Maze, m: Maze, w: int, h: int, px: int, py: int): (r: Maze)
    requires HasShape(d, w, h) && HasShape(m, w, h) && InBounds(w, h, px, py)
    ensures HasShape(r, w, h)
    ensures forall y, x :: InBounds(w, h, x, y) ==>
              r[y][x] == if Near(px, py, x, y) && d[y][x] == UNKNOWN then m[y][x] else d[y][x]
  {
    RevealFrom(RevealCell(d, m, w, h, px, py), m, w, h, px, py, 0)
  }

  /** Two grids of the same shape that agree cell by cell are equal. */
  lemma GridsEqual(a: Maze, b: Maze, w: int, h: int)
    requires HasShape(a, w, h) && HasShape(b, w, h)
    requires forall y, x :: InBounds(w, h, x, y) ==> a[y][x] == b[y][x]
    ensures a == b
  {
    forall y | 0 <= y < h ensures a[y] == b[y] {
      assert forall x :: 0 <= x < w ==> a[y][x] == b[y][x];
    }
  }

  /** Revealing twice at the same cell is the same as revealing once. */
  lemma RevealIdempotent(d: Maze, m: Maze, w: int, h: int, px: int, py: int)
    requires HasShape(d, w, h) && HasShape(m, w, h) && InBounds(w, h, px, py)
    requires IsBinary(m, w, h)
    ensures Reveal(Reveal(d, m, w, h, px, py), m, w, h, px, py) == Reveal(d, m, w, h, px, py)
  {
    var r := Reveal(d, m, w, h, px, py);
    GridsEqual(Reveal(r, m, w, h, px, py), r, w, h);
  }

  /** A reveal only uncovers: seen cells keep their value, the grid stays
      consistent with the maze, and afterwards the whole clipped block is
      seen. */
  lemma RevealMonotone(d: Maze, m: Maze, w: int, h: int, px: int, py: int)
    requires HasShape(d, w, h) && HasShape(m, w, h) && InBounds(w, h, px, py)
    requires IsBinary(m, w, h)
    ensures var r := Reveal(d, m, w, h, px, py);
      && KeepsKnown(d, r, w, h)
      && (Consistent(d, m, w, h) ==> Consistent(r, m, w, h))
      && (forall y, x :: InBounds(w, h, x, y) && Near(px, py, x, y) ==> r[y][x] != UNKNOWN)
  {
  }

  /** One row of `updateMapStats`: (seen floor cells, floor cells). */
  function RowStats(mr: seq<int>, dr: seq<int>): (c: (nat, nat))
    requires |mr| == |dr|
    ensures c.0 <= c.1 <= |mr|
  {
    if |mr| == 0 then (0, 0)
    else
      var rest := RowStats(mr[1..], dr[1..]);
      (rest.0 + (if mr[0] == OPEN && dr[0] != UNKNOWN then 1 else 0),
       rest.1 + (if mr[0] == OPEN then 1 else 0))
  }

  /** The first `rows` rows of `updateMapStats`. */
  function StatsUpTo(m: Maze, d: Maze, w: int, h: int, rows: nat): (c: (nat, nat))
    requires HasShape(m, w, h) && HasShape(d, w, h) && rows <= h
    ensures c.0 <= c.1
  {
    if rows == 0 then (0, 0)
    else
      var rest := StatsUpTo(m, d, w, h, rows - 1);
      var row := RowStats(m[rows - 1], d[rows - 1]);
      (rest.0 + row.0, rest.1 + row.1)
  }

  /** `updateMapStats`: (`exploredCount`, `totalTraversable`), the number of
      floor cells already seen and the number of floor cells. */
  function MapStats(m: Maze, d: Maze, w: int, h: int): (c: (nat, nat))
    requires HasShape(m, w, h) && HasShape(d, w, h)
    ensures c.0 <= c.1
  {
    StatsUpTo(m, d, w, h, h)
  }

  lemma {:induction false} RowStatsGrow(mr: seq<int>, dr: seq<int>, dr': seq<int>)
    requires |mr| == |dr| == |dr'|
    requires forall x :: 0 <= x < |dr| && dr[x] != UNKNOWN ==> dr'[x] != UNKNOWN
    ensures RowStats(mr, dr).0 <= RowStats(mr, dr').0
    ensures RowStats(mr, dr).1 == RowStats(mr, dr').1
    decreases |mr|
  {
    if |mr| > 0 {
      assert dr[0] != UNKNOWN ==> dr'[0] != UNKNOWN;
      RowStatsGrow(mr[1..], dr[1..], dr'[1..]);
    }
  }

  lemma {:induction false} RowStatsFull(mr: seq<int>, dr: seq<int>)
    requires |mr| == |dr|
    ensures RowStats(mr, dr).0 == RowStats(mr, dr).1 <==>
              forall x :: 0 <= x < |mr| && mr[x] == OPEN ==> dr[x] != UNKNOWN
    decreases |mr|
  {
    if |mr| > 0 {
      RowStatsFull(mr[1..], dr[1..]);
      if forall x :: 0 <= x < |mr| && mr[x] == OPEN ==> dr[x] != UNKNOWN {
        forall x | 0 <= x < |mr| - 1 && mr[1..][x] == OPEN ensures dr[1..][x] != UNKNOWN {
          assert mr[x + 1] == OPEN;
        }
      } else {
        var x :| 0 <= x < |mr| && mr[x] == OPEN && dr[x] == UNKNOWN;
        if x > 0 {
          assert mr[1..][x - 1] == OPEN && dr[1..][x - 1] == UNKNOWN;
        }
      }
    }
  }

  lemma {:induction false} StatsGrow(m: Maze, d: Maze, d': Maze, w: int, h: int, rows: nat)
    requires HasShape(m, w, h) && HasShape(d, w, h) && HasShape(d', w, h) && rows <= h
    requires forall y, x :: InBounds(w, h, x, y) && d[y][x] != UNKNOWN ==> d'[y][x] != UNKNOWN
    ensures StatsUpTo(m, d, w, h, rows).0 <= StatsUpTo(m, d', w, h, rows).0
    ensures StatsUpTo(m, d, w, h, rows).1 == StatsUpTo(m, d', w, h, rows).1
  {
    if rows > 0 {
      StatsGrow(m, d, d', w, h, rows - 1);
      var y := rows - 1;
      assert forall x :: 0 <= x < w && d[y][x] != UNKNOWN ==> d'[y][x] != UNKNOWN;
      RowStatsGrow(m[y], d[y], d'[y]);
    }
  }

  lemma {:induction false} StatsFull(m: Maze, d: Maze, w: int, h: int, rows: nat)
    requires HasShape(m, w, h) && HasShape(d, w, h) && rows <= h
    ensures StatsUpTo(m, d, w, h, rows).0 == StatsUpTo(m, d, w, h, rows).1 <==>
              forall y, x :: 0 <= y < rows && 0 <= x < w && m[y][x] == OPEN ==> d[y][x] != UNKNOWN
  {
    if rows > 0 {
      var y := rows - 1;
      StatsFull(m, d, w, h, y);
      RowStatsFull(m[y], d[y]);
    }
  }

  /** Seeing more never lowers the explored count, and the traversable count
      depends on the maze alone. */
  lemma ExploredGrows(m: Maze, d: Maze, d': Maze, w: int, h: int)
    requires HasShape(m, w, h) && HasShape(d, w, h) && HasShape(d', w, h)
    requires KeepsKnown(d, d', w, h)
    ensures MapStats(m, d, w, h).0 <= MapStats(m, d', w, h).0
    ensures MapStats(m, d, w, h).1 == MapStats(m, d', w, h).1
  {
    StatsGrow(m, d, d', w, h, h);
  }

  /** The explored count reaches the traversable count exactly when every
      floor cell has been seen. */
  lemma FullyExplored(m: Maze, d: Maze, w: int, h: int)
    requires HasShape(m, w, h) && HasShape(d, w, h)
    ensures MapStats(m, d, w, h).0 == MapStats(m, d, w, h).1 <==>
              forall y, x :: InBounds(w, h, x, y) && m[y][x] == OPEN ==> d[y][x] != UNKNOWN
  {
    StatsFull(m, d, w, h, h);
  }
}

=== FILE: game_v1.dfy ===
/** The first version of the game: the state that survives between key
    presses, the effect of one key press (move, then `update2DMap`, then
    `checkGoal`), and `restartGame`. */
module GameV1 {
  import opened Grid
  import opened Oracle
  import opened Options
  import opened Movement
  import opened Discovery
  import opened Carving
  import opened Generate

  /** The maze, the discovery grid, the player's pose, and whether the goal
      message is on screen. */
  datatype State = State(w: int, h: int, maze: Maze, discovered: Maze, pose: Pose, goalShown: bool)

  /** What holds between key presses: both grids have the maze's shape, the
      maze is walls and floor, every seen cell shows the maze's value, and
      the player stands on floor with a heading in 0..3. */
  ghost predicate Valid(s: State)
  {
    && ValidDims(s.w, s.h)
    && HasShape(s.maze, s.w, s.h) && HasShape(s.discovered, s.w, s.h)
    && IsBinary(s.maze, s.w, s.h)
    && Consistent(s.discovered, s.maze, s.w, s.h)
    && Passable(s.maze, s.w, s.h, s.pose.x, s.pose.y)
    && 0 <= s.pose.rot < 4
  }

  /** One key press. A key outside `w`, `s`, `a`, `d` changes nothing;
      otherwise the pose moves or turns, the block around the new position
      is revealed, and the goal message appears when the player stands on
      the goal (it stays up until a restart). The maze never changes and
      nothing seen is forgotten. */
  function HandleKeyV1(s: State, key: string): (r: State)
    requires Valid(s)
    ensures Valid(r)
    ensures r.w == s.w && r.h == s.h && r.maze == s.maze
    ensures KeepsKnown(s.discovered, r.discovered, s.w, s.h)
    ensures KeyActionV1(key).None? ==> r == s
    ensures KeyActionV1(key).Some? ==>
              && r.pose == Move(s.maze, s.w, s.h, s.pose, KeyActionV1(key).value)
              && r.discovered == Reveal(s.discovered, s.maze, s.w, s.h, r.pose.x, r.pose.y)
              && (r.goalShown <==> s.goalShown || AtGoal(s.w, s.h, r.pose))
  {
    match KeyActionV1(key)
    case None => s
    case Some(a) =>
      var p := Move(s.maze, s.w, s.h, s.pose, a);
      var d := Reveal(s.discovered, s.maze, s.w, s.h, p.x, p.y);
      RevealMonotone(s.discovered, s.maze, s.w, s.h, p.x, p.y);
      State(s.w, s.h, s.maze, d, p, s.goalShown || AtGoal(s.w, s.h, p))
  }

  /** After a move the 3x3 block around the player has been seen, and the
      explored count has not gone down. */
  lemma KeyRevealsSurroundings(s: State, key: string)
    requires Valid(s) && KeyActionV1(key).Some?
    ensures var r := HandleKeyV1(s, key);
      && (forall y, x :: InBounds(s.w, s.h, x, y) && Near(r.pose.x, r.pose.y, x, y) ==> r.discovered[y][x] != UNKNOWN)
      && MapStats(s.maze, s.discovered, s.w, s.h).0 <= MapStats(r.maze, r.discovered, r.w, r.h).0
  {
    var r := HandleKeyV1(s, key);
    RevealMonotone(s.discovered, s.maze, s.w, s.h, r.pose.x, r.pose.y);
    ExploredGrows(s.maze, s.discovered, r.discovered, s.w, s.h);
  }

  /** `restartGame`: the player back at (1,1) facing north, a fresh perfect
      maze with nothing seen (this version does not reveal the start block
      until the first move), and the goal message hidden. */
  method RestartV1(w: int, h: int, rand: Stream, next: nat) returns (r: State, used: nat)
    requires ValidDims(w, h)
    ensures Valid(r)
    ensures r.w == w && r.h == h
    ensures r.pose == StartPose() && !r.goalShown
    ensures PerfectMaze(r.maze, w, h)
    ensures forall y, x :: InBounds(w, h, x, y) ==> r.discovered[y][x] == UNKNOWN
    ensures used == LoopsFrom(w, h, next)
  {
    var maze, discovered;
    maze, discovered, used := GenerateMazeV1(w, h, rand, next);
    assert IsRoom(w, h, 1, 1);
    r := State(w, h, maze, discovered, StartPose(), false);
  }
}

=== FILE: game_v2.dfy ===
/** The later version of the game: gems to collect, a running timer and a
    best time. One key press moves the player, then (once the move is over)
    `checkGemCollection`, `update2DMap` and `checkGoal` run in that order;
    `startGame` sets up a new round. */
module GameV2 {
  import opened Grid
  import opened Oracle
  import opened Options
  import opened Movement
  import opened Discovery
  import opened Loops
  import opened Carving
  import opened Generate
  import opened Gems
  import opened Timing

  /** The goal message, when shown, says whether the run set a new record. */
  datatype Modal = Hidden | Shown(newRecord: bool)

  /** `maze`, `discoveredMaze`, the gems still lying in the maze, the
      `collectedGems` counter, the pose, `bestTime`, `elapsedTime`
      (`undefined` until the first timer tick), whether the timer interval
      is active, and the goal message. */
  datatype State = State(
    w: int, h: int,
    maze: Maze, discovered: Maze,
    gems: seq<Pos>, collected: nat,
    pose: Pose,
    best: Duration, elapsed: Option<nat>, timerRunning: bool,
    modal: Modal)

  /** What holds between key presses: the grids have the maze's shape, the
      maze is walls and floor with start and goal on floor, seen cells show
      the maze, the player stands on floor with a heading in 0..3 and has
      seen the block around them, every gem lies on an acceptable cell, the
      gems left plus the gems collected are `NUM_GEMS`, and once the timer
      has stopped the elapsed time is no longer below the best. */
  ghost predicate Valid(s: State)
  {
    && ValidDims(s.w, s.h)
    && HasShape(s.maze, s.w, s.h) && HasShape(s.discovered, s.w, s.h)
    && IsBinary(s.maze, s.w, s.h)
    && Passable(s.maze, s.w, s.h, 1, 1) && Passable(s.maze, s.w, s.h, s.w - 2, s.h - 2)
    && Consistent(s.discovered, s.maze, s.w, s.h)
    && Passable(s.maze, s.w, s.h, s.pose.x, s.pose.y)
    && 0 <= s.pose.rot < 4
    && (forall y, x :: InBounds(s.w, s.h, x, y) && Near(s.pose.x, s.pose.y, x, y) ==> s.discovered[y][x] != UNKNOWN)
    && (forall g :: g in s.gems ==> InBounds(s.w, s.h, g.x, g.y) && Acceptable(s.maze, s.w, s.h, g))
    && |s.gems| + s.collected == NUM_GEMS
    && (!s.timerRunning ==> !Beats(s.elapsed, s.best))
  }

  /** `checkGoal`: on the goal with all gems collected, the timer stops, the
      best time is updated if this run beat it, and the message is shown
      with the record flag. Anywhere else nothing happens. There is no
      finished state: every later arrival at the goal runs this again. */
  function CheckGoal(s: State): (r: State)
    ensures r.w == s.w && r.h == s.h && r.maze == s.maze && r.discovered == s.discovered
    ensures r.gems == s.gems && r.collected == s.collected && r.pose == s.pose && r.elapsed == s.elapsed
    ensures AtGoal(s.w, s.h, s.pose) && s.collected == NUM_GEMS ==>
              && !r.timerRunning
              && r.modal == Shown(Beats(s.elapsed, s.best))
              && (Beats(s.elapsed, s.best) ==> r.best == Ms(s.elapsed.value))
              && (!Beats(s.elapsed, s.best) ==> r.best == s.best)
              && !Beats(r.elapsed, r.best)
    ensures !(AtGoal(s.w, s.h, s.pose) && s.collected == NUM_GEMS) ==> r == s
    ensures AtMost(r.best, s.best)
  {
    if AtGoal(s.w, s.h, s.pose) && s.collected == NUM_GEMS then
      var (best, record) := RecordIfBest(s.elapsed, s.best);
      s.(timerRunning := false, best := best, modal := Shown(record))
    else
      s
  }

  lemma CheckGoalKeepsValid(s: State)
    requires Valid(s)
    ensures Valid(CheckGoal(s))
  {
  }

  /** The part of a key press before the goal check: move, collect the gems
      on the new cell, reveal the block around it. */
  function Step(s: State, a: Action): (r: State)
    requires HasShape(s.maze, s.w, s.h) && HasShape(s.discovered, s.w, s.h)
    requires Passable(s.maze, s.w, s.h, s.pose.x, s.pose.y)
    ensures r.w == s.w && r.h == s.h && r.maze == s.maze
    ensures r.best == s.best && r.elapsed == s.elapsed && r.timerRunning == s.timerRunning && r.modal == s.modal
    ensures r.pose == Move(s.maze, s.w, s.h, s.pose, a)
    ensures r.discovered == Reveal(s.discovered, s.maze, s.w, s.h, r.pose.x, r.pose.y)
    ensures r.gems == CollectGems(s.gems, Pos(r.pose.x, r.pose.y)).0
    ensures r.collected == s.collected + CollectGems(s.gems, Pos(r.pose.x, r.pose.y)).1
  {
    var p := Move(s.maze, s.w, s.h, s.pose, a);
    var (gems, n) := CollectGems(s.gems, Pos(p.x, p.y));
    var d := Reveal(s.discovered, s.maze, s.w, s.h, p.x, p.y);
    s.(discovered := d, gems := gems, collected := s.collected + n, pose := p)
  }

  lemma StepSees(s: State, a: Action)
    requires Valid(s)
    ensures var r := Step(s, a);
      && HasShape(r.discovered, s.w, s.h)
      && KeepsKnown(s.discovered, r.discovered, s.w, s.h)
      && Consistent(r.discovered, s.maze, s.w, s.h)
      && forall y, x :: InBounds(s.w, s.h, x, y) && Near(r.pose.x, r.pose.y, x, y) ==> r.discovered[y][x] != UNKNOWN
  {
    var r := Step(s, a);
    RevealMonotone(s.discovered, s.maze, s.w, s.h, r.pose.x, r.pose.y);
  }

  lemma StepKeepsGems(s: State, a: Action)
    requires Valid(s)
    ensures var r := Step(s, a);
      && (forall g :: g in r.gems ==> InBounds(s.w, s.h, g.x, g.y) && Acceptable(s.maze, s.w, s.h, g))
      && |r.gems| + r.collected == NUM_GEMS
  {
    var r := Step(s, a);
    RemainingWereThere(s.gems, Pos(r.pose.x, r.pose.y));
  }

  /** `Valid` for a state that differs from a valid one only in the seen
      cells, the pose and the gems. */
  lemma ValidFromParts(s: State, r: State)
    requires Valid(s)
    requires r.w == s.w && r.h == s.h && r.maze == s.maze
    requires r.best == s.best && r.elapsed == s.elapsed && r.timerRunning == s.timerRunning
    requires HasShape(r.discovered, s.w, s.h) && Consistent(r.discovered, s.maze, s.w, s.h)
    requires forall y, x :: InBounds(s.w, s.h, x, y) && Near(r.pose.x, r.pose.y, x, y) ==> r.discovered[y][x] != UNKNOWN
    requires Passable(s.maze, s.w, s.h, r.pose.x, r.pose.y) && 0 <= r.pose.rot < 4
    requires forall g :: g in r.gems ==> InBounds(s.w, s.h, g.x, g.y) && Acceptable(s.maze, s.w, s.h, g)
    requires |r.gems| + r.collected == NUM_GEMS
    ensures Valid(r)
  {
  }

  lemma StepKeepsValid(s: State, a: Action)
    requires Valid(s)
    ensures Valid(Step(s, a))
    ensures KeepsKnown(s.discovered, Step(s, a).discovered, s.w, s.h)
  {
    StepSees(s, a);
    StepKeepsGems(s, a);
    ValidFromParts(s, Step(s, a));
  }

  /** One key press. A key outside `w`/`s`/`a`/`d` and the arrow keys
      changes nothing. Otherwise: the pose moves or turns; every gem on the
      new cell that `forEach` reaches is removed and counted; the block
      around the player is revealed; and the goal check runs. The maze
      never changes, nothing seen is forgotten, the collected count never
      goes down, and the best time never gets worse. */
  function HandleKeyV2(s: State, key: string): (r: State)
    requires Valid(s)
    ensures Valid(r)
    ensures r.w == s.w && r.h == s.h && r.maze == s.maze
    ensures KeepsKnown(s.discovered, r.discovered, s.w, s.h)
    ensures s.collected <= r.collected && AtMost(r.best, s.best)
    ensures r.elapsed == s.elapsed
    ensures KeyActionV2(key).None? ==> r == s
    ensures KeyActionV2(key).Some? ==>
              && r.pose == Move(s.maze, s.w, s.h, s.pose, KeyActionV2(key).value)
              && r.discovered == Reveal(s.discovered, s.maze, s.w, s.h, r.pose.x, r.pose.y)
              && r.gems == CollectGems(s.gems, Pos(r.pose.x, r.pose.y)).0
              && r.collected == s.collected + CollectGems(s.gems, Pos(r.pose.x, r.pose.y)).1
  {
    match KeyActionV2(key)
    case None => s
    case Some(a) =>
      StepKeepsValid(s, a);
      CheckGoalKeepsValid(Step(s, a));
      CheckGoal(Step(s, a))
  }

  /** The goal event of a key press fires exactly when the player ends on
      the goal cell with every gem collected, that is with no gem left in
      the maze. */
  lemma GoalEventIff(s: State, key: string)
    requires Valid(s) && KeyActionV2(key).Some?
    ensures var r := HandleKeyV2(s, key);
      (r.modal != s.modal || r.timerRunning != s.timerRunning || r.best != s.best) ==>
        AtGoal(r.w, r.h, r.pose) && |r.gems| == 0
    ensures var r := HandleKeyV2(s, key);
      AtGoal(r.w, r.h, r.pose) && |r.gems| == 0 ==> !r.timerRunning && r.modal.Shown?
  {
  }

  /** Once the timer has stopped, reaching the goal again shows the message
      once more, but never as a new record: the elapsed time is frozen and
      already no better than the best. */
  lemma NoRecordAfterStop(s: State, key: string)
    requires Valid(s) && !s.timerRunning
    ensures HandleKeyV2(s, key).best == s.best
    ensures HandleKeyV2(s, key).modal in {s.modal, Shown(false)}
  {
  }

  /** A key press never lowers the explored count, and never changes the
      traversable count. */
  lemma KeyNeverForgets(s: State, key: string)
    requires Valid(s)
    ensures var r := HandleKeyV2(s, key);
      && MapStats(s.maze, s.discovered, s.w, s.h).0 <= MapStats(r.maze, r.discovered, r.w, r.h).0
      && MapStats(s.maze, s.discovered, s.w, s.h).1 == MapStats(r.maze, r.discovered, r.w, r.h).1
  {
    var r := HandleKeyV2(s, key);
    ExploredGrows(s.maze, s.discovered, r.discovered, s.w, s.h);
  }

  function Abs(n: int): nat { if n < 0 then -n else n }

  /** The distance shown by `updateMapStats`: the number of cells between the
      player and the goal along the axes, ignoring walls. It is zero exactly
      on the goal. */
  function DistanceToGoal(w: int, h: int, p: Pose): (d: nat)
    ensures d == 0 <==> AtGoal(w, h, p)
  {
    Abs(p.x - (w - 2)) + Abs(p.y - (h - 2))
  }

  /** One key press changes the distance by at most one. */
  lemma DistanceStep(maze: Maze, w: int, h: int, p: Pose, a: Action)
    requires HasShape(maze, w, h)
    ensures var q := Move(maze, w, h, p, a);
      DistanceToGoal(w, h, p) - 1 <= DistanceToGoal(w, h, q) <= DistanceToGoal(w, h, p) + 1
  {
    MoveAtMostOneCell(maze, w, h, p, a);
  }

  /** A tick of the timer interval: while the timer runs, `elapsedTime`
      becomes the milliseconds since the round started; after `stopTimer`
      ticks have no effect. */
  function Tick(s: State, sinceStart: nat): (r: State)
    requires Valid(s)
    ensures Valid(r)
    ensures s.timerRunning ==> r == s.(elapsed := Some(sinceStart))
    ensures !s.timerRunning ==> r == s
  {
    if s.timerRunning then s.(elapsed := Some(sinceStart)) else s
  }

  /** `startGame`, on first load and from the restart button: the player at
      (1,1) facing north with no gems collected, a new maze with loops,
      `NUM_GEMS` gems placed (None when some gem found no acceptable cell
      within `fuel` attempts, drawing right after maze generation; `m` is the
      generated maze either way), the block around the start revealed, the
      timer started and the message hidden. The best time is kept, and so is
      the last `elapsedTime`, which the timer only overwrites at its first
      tick. */
  method StartGameV2(w: int, h: int, best: Duration, elapsed: Option<nat>, rand: Stream, next: nat, fuel: nat)
    returns (r: Option<State>, used: nat, ghost m: Maze)
    requires ValidDims(w, h)
    ensures HasShape(m, w, h) && BorderIsWall(m, w, h) && RoomsOpen(m, w, h)
    ensures exists tree :: && PerfectMaze(tree, w, h)
                           && OnlyOpens(tree, m, w, h)
                           && OpenCells(m, w, h) == OpenCells(tree, w, h) + LoopCells(w, h, rand, LoopsFrom(w, h, next), LoopCount(w, h))
    ensures RoomsReachable(m, w, h) && Reachable(m, w, h, Goal(w, h))
    ensures 2 * |Rooms(w, h)| - 1 <= |OpenCells(m, w, h)| <= 2 * |Rooms(w, h)| - 1 + LoopCount(w, h)
    ensures r.Some? ==> var s := r.value;
      && Valid(s)
      && s.w == w && s.h == h && s.maze == m
      && s.pose == StartPose() && s.collected == 0 && |s.gems| == NUM_GEMS
      && s.best == best && s.elapsed == elapsed && s.timerRunning && s.modal == Hidden
      && PlaceGems(m, w, h, rand, GemsFrom(w, h, next), fuel, NUM_GEMS) == Some((s.gems, used))
      && AllLoopPicks(m, w, h, rand, fuel, GemsFrom(w, h, next), s.gems)
      && forall y, x :: InBounds(w, h, x, y) ==> (s.discovered[y][x] != UNKNOWN <==> Near(1, 1, x, y))
    ensures r.None? ==> && PlaceGems(m, w, h, rand, GemsFrom(w, h, next), fuel, NUM_GEMS).None?
                        && LoopRunsOut(m, w, h, rand, fuel, GemsFrom(w, h, next))
    ensures next <= used
  {
    var maze, unseen;
    maze, unseen, used := GenerateMazeV2(w, h, rand, next);
    m := maze;
    var placed := PlaceGems(maze, w, h, rand, used, fuel, NUM_GEMS);
    if placed.None? {
      return None, used, m;
    }
    PlaceGemsFirstPicks(maze, w, h, rand, used, fuel, NUM_GEMS);
    var gems := placed.value.0;
    used := placed.value.1;
    var discovered := Reveal(unseen, maze, w, h, 1, 1);
    NewRoundValid(w, h, maze, unseen, gems, best, elapsed);
    r := Some(State(w, h, maze, discovered, gems, 0, StartPose(), best, elapsed, true, Hidden));
  }

  /** The first draw gem placement takes in `startGame`: the one after
      carving (one draw per room but (1,1)) and the loop attempts (two draws
      each). */
  ghost function GemsFrom(w: int, h: int, next: nat): int
  {
    LoopsFrom(w, h, next) + 2 * LoopCount(w, h)
  }

  /** The state `startGame` builds is valid, and exactly the block around
      the start has been seen. */
  lemma NewRoundValid(w: int, h: int, maze: Maze, unseen: Maze, gems: seq<Pos>, best: Duration, elapsed: Option<nat>)
    requires ValidDims(w, h) && HasShape(maze, w, h) && IsBinary(maze, w, h) && RoomsOpen(maze, w, h)
    requires HasShape(unseen, w, h) && forall y, x :: InBounds(w, h, x, y) ==> unseen[y][x] == UNKNOWN
    requires |gems| == NUM_GEMS
    requires forall k :: 0 <= k < |gems| ==> Interior(w, h, gems[k].x, gems[k].y) && Acceptable(maze, w, h, gems[k])
    ensures var s := State(w, h, maze, Reveal(unseen, maze, w, h, 1, 1), gems, 0, StartPose(), best, elapsed, true, Hidden);
      && Valid(s)
      && forall y, x :: InBounds(w, h, x, y) ==> (s.discovered[y][x] != UNKNOWN <==> Near(1, 1, x, y))
  {
    assert IsRoom(w, h, 1, 1) && IsRoom(w, h, w - 2, h - 2);
    forall g | g in gems ensures InBounds(w, h, g.x, g.y) && Acceptable(maze, w, h, g) {
      var k :| 0 <= k < |gems| && gems[k] == g;
    }
    RevealMonotone(unseen, maze, w, h, 1, 1);
  }
}

=== FILE: gems.dfy ===
/** Gems of the later version of the game: `placeGems` samples cells by
    rejection, and `checkGemCollection` removes the gems lying on the
    player's cell while counting them in `collectedGems`. */
module Gems {
  import opened Grid
  import opened Oracle
  import opened Options

  const NUM_GEMS: nat := 3

  /** The cell ends the do-while loop: it is floor, and it is neither the
      start (1,1) nor the goal (w-2, h-2). Whether a gem is already there is
      not looked at. */
  predicate Acceptable(maze: Maze, w: int, h: int, p: Pos)
    requires HasShape(maze, w, h) && InBounds(w, h, p.x, p.y)
  {
    maze[p.y][p.x] == OPEN && !(p.x == 1 && p.y == 1) && !(p.x == w - 2 && p.y == h - 2)
  }

  /** The do-while loop for one gem, following attempts `i` to `fuel - 1`:
      the number of the first acceptable attempt, or None if none of them is
      acceptable (the game would keep drawing). */
  function FirstAcceptable(maze: Maze, w: int, h: int, rand: Stream, n: nat, i: nat, fuel: nat): (r: Option<nat>)
    requires ValidDims(w, h) && HasShape(maze, w, h)
    ensures r.Some? ==>
              && i <= r.value < fuel
              && Acceptable(maze, w, h, InteriorCell(w, h, rand, n, r.value))
              && forall j :: i <= j < r.value ==> !Acceptable(maze, w, h, InteriorCell(w, h, rand, n, j))
    ensures r.None? ==> forall j :: i <= j < fuel ==> !Acceptable(maze, w, h, InteriorCell(w, h, rand, n, j))
    decreases fuel - i
  {
    if i >= fuel then None
    else if Acceptable(maze, w, h, InteriorCell(w, h, rand, n, i)) then Some(i)
    else FirstAcceptable(maze, w, h, rand, n, i + 1, fuel)
  }

  /** The do-while loop of some gem, starting at a draw at or after `n`,
      finds no acceptable cell within `fuel` attempts. */
  ghost predicate LoopRunsOut(maze: Maze, w: int, h: int, rand: Stream, fuel: nat, n: nat)
    requires ValidDims(w, h) && HasShape(maze, w, h)
  {
    exists m: nat :: n <= m && FirstAcceptable(maze, w, h, rand, m, 0, fuel).None?
  }

  /** `placeGems` for `count` gems, each allowed `fuel` attempts, starting
      at draw `n`: the gems in placement order and the next unused draw, or
      None if some gem found no acceptable cell within its attempts. Every
      placed gem lies on an interior floor cell other than start and goal
      and takes at least two draws; None comes only from a gem whose loop
      ran out of attempts. Which cell each gem gets is stated by
      `PlaceGemsUnfold` and `PlaceGemsFirstPicks`. */
  function PlaceGems(maze: Maze, w: int, h: int, rand: Stream, n: nat, fuel: nat, count: nat)
    : (r: Option<(seq<Pos>, nat)>)
    requires ValidDims(w, h) && HasShape(maze, w, h)
    ensures r.Some? ==>
              && |r.value.0| == count
              && n + 2 * count <= r.value.1
              && forall k :: 0 <= k < count ==>
                   && Interior(w, h, r.value.0[k].x, r.value.0[k].y)
                   && Acceptable(maze, w, h, r.value.0[k])
    ensures r.None? ==> count > 0 && LoopRunsOut(maze, w, h, rand, fuel, n)
    decreases count
  {
    if count == 0 then Some(([], n))
    else
      match FirstAcceptable(maze, w, h, rand, n, 0, fuel)
      case None => None
      case Some(i) =>
        var gem := InteriorCell(w, h, rand, n, i);
        match PlaceGems(maze, w, h, rand, n + 2 * i + 2, fuel, count - 1)
        case None => None
        case Some((rest, used)) => Some(([gem] + rest, used))
  }

  /** `p` is the cell the do-while loop starting at draw `m` settles on. */
  ghost predicate LoopPick(maze: Maze, w: int, h: int, rand: Stream, fuel: nat, m: nat, p: Pos)
    requires ValidDims(w, h) && HasShape(maze, w, h)
  {
    && FirstAcceptable(maze, w, h, rand, m, 0, fuel).Some?
    && p == InteriorCell(w, h, rand, m, FirstAcceptable(maze, w, h, rand, m, 0, fuel).value)
  }

  /** Each of `gems` is the cell some do-while loop starting at or after
      draw `n` settles on. */
  ghost predicate AllLoopPicks(maze: Maze, w: int, h: int, rand: Stream, fuel: nat, n: nat, gems: seq<Pos>)
    requires ValidDims(w, h) && HasShape(maze, w, h)
  {
    forall k :: 0 <= k < |gems| ==> PickedAfter(maze, w, h, rand, fuel, n, gems[k])
  }

  /** `p` is the cell some do-while loop starting at or after draw `n`
      settles on. */
  ghost predicate PickedAfter(maze: Maze, w: int, h: int, rand: Stream, fuel: nat, n: nat, p: Pos)
    requires ValidDims(w, h) && HasShape(maze, w, h)
  {
    exists m: nat :: n <= m && LoopPick(maze, w, h, rand, fuel, m, p)
  }

  /** Every placed gem is the first acceptable cell drawn by its own loop,
      which starts at some draw at or after `n`. */
  lemma {:induction false} PlaceGemsFirstPicks(maze: Maze, w: int, h: int, rand: Stream, n: nat, fuel: nat, count: nat)
    requires ValidDims(w, h) && HasShape(maze, w, h)
    requires PlaceGems(maze, w, h, rand, n, fuel, count).Some?
    ensures AllLoopPicks(maze, w, h, rand, fuel, n, PlaceGems(maze, w, h, rand, n, fuel, count).value.0)
    decreases count
  {
    if count > 0 {
      var gems := PlaceGems(maze, w, h, rand, n, fuel, count).value.0;
      var i := FirstAcceptable(maze, w, h, rand, n, 0, fuel).value;
      var n' := n + 2 * i + 2;
      var gem := InteriorCell(w, h, rand, n, i);
      var rest := PlaceGems(maze, w, h, rand, n', fuel, count - 1).value.0;
      assert gems == [gem] + rest && PlaceGems(maze, w, h, rand, n', fuel, count - 1).Some? by {
        PlaceGemsUnfold(maze, w, h, rand, n, fuel, count);
      }
      PlaceGemsFirstPicks(maze, w, h, rand, n', fuel, count - 1);
      assert LoopPick(maze, w, h, rand, fuel, n, gem);
      PicksCons(maze, w, h, rand, fuel, n, n', gem, rest);
    } else {
      assert PlaceGems(maze, w, h, rand, n, fuel, count).value.0 == [];
    }
  }

  lemma PicksCons(maze: Maze, w: int, h: int, rand: Stream, fuel: nat, n: nat, n': nat, gem: Pos, rest: seq<Pos>)
    requires ValidDims(w, h) && HasShape(maze, w, h) && n <= n'
    requires LoopPick(maze, w, h, rand, fuel, n, gem)
    requires AllLoopPicks(maze, w, h, rand, fuel, n', rest)
    ensures AllLoopPicks(maze, w, h, rand, fuel, n, [gem] + rest)
  {
    var gems := [gem] + rest;
    forall k | 0 <= k < |gems| ensures PickedAfter(maze, w, h, rand, fuel, n, gems[k]) {
      if k == 0 {
        assert LoopPick(maze, w, h, rand, fuel, n, gems[0]);
      } else {
        assert gems[k] == rest[k - 1];
        assert PickedAfter(maze, w, h, rand, fuel, n', rest[k - 1]);
        var m: nat :| n' <= m && LoopPick(maze, w, h, rand, fuel, m, rest[k - 1]);
        assert n <= m && LoopPick(maze, w, h, rand, fuel, m, gems[k]);
      }
    }
  }

  /** A successful placement of `count > 0` gems is the first gem's loop
      followed by a successful placement of the others from the next draw. */
  lemma PlaceGemsUnfold(maze: Maze, w: int, h: int, rand: Stream, n: nat, fuel: nat, count: nat)
    requires ValidDims(w, h) && HasShape(maze, w, h) && count > 0
    requires PlaceGems(maze, w, h, rand, n, fuel, count).Some?
    ensures FirstAcceptable(maze, w, h, rand, n, 0, fuel).Some?
    ensures var n' := n + 2 * FirstAcceptable(maze, w, h, rand, n, 0, fuel).value + 2;
      && PlaceGems(maze, w, h, rand, n', fuel, count - 1).Some?
      && PlaceGems(maze, w, h, rand, n, fuel, count).value.0
         == [InteriorCell(w, h, rand, n, FirstAcceptable(maze, w, h, rand, n, 0, fuel).value)]
            + PlaceGems(maze, w, h, rand, n', fuel, count - 1).value.0
  {
  }

  /** `placeGems` does not look at earlier gems: when every attempt draws
      the same acceptable cell `c`, each gem takes its first attempt and all
      `count` gems land on `c`. */
  lemma {:induction false} PlaceGemsStacks(maze: Maze, w: int, h: int, rand: Stream, n: nat, fuel: nat, count: nat, c: Pos)
    requires ValidDims(w, h) && HasShape(maze, w, h) && 0 < fuel
    requires InBounds(w, h, c.x, c.y) && Acceptable(maze, w, h, c)
    requires forall m: nat :: InteriorCell(w, h, rand, m, 0) == c
    ensures PlaceGems(maze, w, h, rand, n, fuel, count) == Some((seq(count, _ => c), n + 2 * count))
    decreases count
  {
    if count > 0 {
      assert InteriorCell(w, h, rand, n, 0) == c;
      assert FirstAcceptable(maze, w, h, rand, n, 0, fuel) == Some(0);
      PlaceGemsStacks(maze, w, h, rand, n + 2, fuel, count - 1, c);
      assert [c] + seq(count - 1, _ => c) == seq(count, _ => c);
    } else {
      assert seq(count, _ => c) == [];
    }
  }

  /** In the 5x3 maze whose only floor cells are (1,1), (2,1) and (3,1),
      a draw of 0.5 always picks (2,1), and all three gems land there. */
  lemma PlaceGemsAllowsDuplicates()
    ensures var maze := [[1, 1, 1, 1, 1], [1, 0, 0, 0, 1], [1, 1, 1, 1, 1]];
      PlaceGems(maze, 5, 3, _ => 0.5, 0, 1, NUM_GEMS) == Some(([Pos(2, 1), Pos(2, 1), Pos(2, 1)], 6))
  {
    var maze := [[1, 1, 1, 1, 1], [1, 0, 0, 0, 1], [1, 1, 1, 1, 1]];
    var rand: Stream := _ => 0.5;
    assert (0.5 * 3 as real).Floor == 1;
    assert (0.5 * 1 as real).Floor == 0;
    forall m: nat ensures InteriorCell(5, 3, rand, m, 0) == Pos(2, 1) {
      assert rand(m) == 0.5 && rand(m + 1) == 0.5;
    }
    PlaceGemsStacks(maze, 5, 3, rand, 0, 1, NUM_GEMS, Pos(2, 1));
    assert seq(3, _ => Pos(2, 1)) == [Pos(2, 1), Pos(2, 1), Pos(2, 1)];
  }

  /** `checkGemCollection` from list position `k` on, with the exact
      behaviour of `forEach` over an array that `splice` shortens: after a
      removal at `k` the next gem has moved to `k` and is skipped. Returns
      the remaining gems and how many were collected, which together are as
      many as there were gems. */
  function CollectFrom(gems: seq<Pos>, k: nat, p: Pos): (r: (seq<Pos>, nat))
    ensures |r.0| + r.1 == |gems|
    decreases |gems| - k
  {
    if k >= |gems| then (gems, 0)
    else if gems[k] == p then
      var rest := CollectFrom(gems[..k] + gems[k + 1..], k + 1, p);
      (rest.0, rest.1 + 1)
    else
      CollectFrom(gems, k + 1, p)
  }

  /** The loop from position `k` leaves the gems before `k` in place. */
  lemma {:induction false} CollectFromKeepsPrefix(gems: seq<Pos>, k: nat, p: Pos)
    requires k <= |gems|
    ensures k <= |CollectFrom(gems, k, p).0| && CollectFrom(gems, k, p).0[..k] == gems[..k]
    decreases |gems| - k
  {
    if k < |gems| {
      if gems[k] == p {
        var spliced := gems[..k] + gems[k + 1..];
        if k + 1 <= |spliced| {
          CollectFromKeepsPrefix(spliced, k + 1, p);
          assert CollectFrom(spliced, k + 1, p).0[..k] == CollectFrom(spliced, k + 1, p).0[..k + 1][..k];
        }
        assert spliced[..k] == gems[..k];
      } else {
        CollectFromKeepsPrefix(gems, k + 1, p);
        assert CollectFrom(gems, k + 1, p).0[..k] == CollectFrom(gems, k + 1, p).0[..k + 1][..k];
        assert gems[..k] == gems[..k + 1][..k];
      }
    }
  }

  /** The loop from position `k` removes gems at `p` only, one count per
      removal: each value keeps its number of copies once the collected
      ones are added back. */
  lemma {:induction false} CollectFromConserves(gems: seq<Pos>, k: nat, p: Pos)
    ensures multiset(gems)[p] == multiset(CollectFrom(gems, k, p).0)[p] + CollectFrom(gems, k, p).1
    ensures forall q :: q != p ==> multiset(CollectFrom(gems, k, p).0)[q] == multiset(gems)[q]
    decreases |gems| - k
  {
    if k < |gems| {
      if gems[k] == p {
        var spliced := gems[..k] + gems[k + 1..];
        assert gems == gems[..k] + [gems[k]] + gems[k + 1..];
        assert multiset(gems) == multiset(spliced) + multiset{p};
        CollectFromConserves(spliced, k + 1, p);
      } else {
        CollectFromConserves(gems, k + 1, p);
      }
    }
  }

  /** The loop from position `k` collects something exactly when a gem at
      `p` lies at `k` or later. */
  lemma {:induction false} CollectFromFinds(gems: seq<Pos>, k: nat, p: Pos)
    ensures CollectFrom(gems, k, p).1 > 0 <==> k < |gems| && p in gems[k..]
    decreases |gems| - k
  {
    if k < |gems| {
      if gems[k] == p {
        assert gems[k..][0] == p;
      } else {
        assert gems[k..] == [gems[k]] + gems[k + 1..];
        CollectFromFinds(gems, k + 1, p);
      }
    }
  }

  /** `checkGemCollection` at the player's cell `p`: only gems at `p` are
      removed, one `collectedGems++` per removal, so the number of gems left
      plus the number collected is the number there were. Something is
      collected exactly when a gem lies at `p`. */
  function CollectGems(gems: seq<Pos>, p: Pos): (r: (seq<Pos>, nat))
    ensures |r.0| + r.1 == |gems|
    ensures multiset(gems)[p] == multiset(r.0)[p] + r.1
    ensures forall q :: q != p ==> multiset(r.0)[q] == multiset(gems)[q]
    ensures r.1 > 0 <==> p in gems
  {
    CollectFromConserves(gems, 0, p);
    CollectFromFinds(gems, 0, p);
    assert gems[0..] == gems;
    CollectFrom(gems, 0, p)
  }

  /** Collection only removes: every gem left was there before. */
  lemma RemainingWereThere(gems: seq<Pos>, p: Pos)
    ensures forall q :: q in CollectGems(gems, p).0 ==> q in gems
  {
    var r := CollectGems(gems, p);
    forall q | q in r.0 ensures q in gems {
      assert multiset(r.0)[q] > 0;
    }
  }

  /** A gem alone on its cell is always collected. */
  lemma LoneGemCollected(gems: seq<Pos>, p: Pos)
    requires multiset(gems)[p] == 1
    ensures CollectGems(gems, p).1 == 1
    ensures p !in CollectGems(gems, p).0
  {
  }

  /** Two gems on the player's cell: the splice skips the second, which
      stays behind until the player arrives there again. */
  lemma CollectionSkipsNeighbour(p: Pos)
    ensures CollectGems([p, p], p) == ([p], 1)
    ensures CollectGems(CollectGems([p, p], p).0, p) == ([], 1)
  {
    assert [p, p][..0] + [p, p][1..] == [p];
    assert CollectFrom([p], 1, p) == ([p], 0);
    assert [p][..0] + [p][1..] == [];
    assert CollectFrom([], 1, p) == ([], 0);
  }
}

=== FILE: generate.dfy ===
/** `generateMaze` of both versions of the game: carving on an all-wall grid
    plus a fresh, all-unknown discovery grid; the later version then injects
    loops into the carved maze. */
module Generate {
  import opened Grid
  import opened Oracle
  import opened Carving
  import opened Loops

  /** `generateMaze` of the first version: a perfect maze, and a discovery
      grid of the same shape with every cell unknown. */
  method GenerateMazeV1(w: int, h: int, rand: Stream, next: nat)
    returns (maze: Maze, discovered: Maze, used: nat)
    requires ValidDims(w, h)
    ensures PerfectMaze(maze, w, h)
    ensures HasShape(discovered, w, h)
    ensures forall y, x :: InBounds(w, h, x, y) ==> discovered[y][x] == UNKNOWN
    ensures used == next + |Rooms(w, h)| - 1
  {
    maze, used := Carve(w, h, rand, next);
    discovered := Fill(w, h, UNKNOWN);
  }

  /** The index of the first draw of loop injection when carving starts at
      draw `next`: carving takes one draw per room other than (1,1). */
  ghost function LoopsFrom(w: int, h: int, next: nat): int
  {
    next + |Rooms(w, h)| - 1
  }

  /** `generateMaze` of the later version: a perfect maze with loops
      injected. The result is a perfect maze (carved from draw `next` on)
      plus exactly the cells the loop attempts open (from the draw after
      carving on), so at most `LoopCount(w, h)` more open cells; every
      room stays open and reachable from the start, the goal in particular,
      and the border stays wall. */
  method GenerateMazeV2(w: int, h: int, rand: Stream, next: nat)
    returns (maze: Maze, discovered: Maze, used: nat)
    requires ValidDims(w, h)
    ensures HasShape(maze, w, h) && IsBinary(maze, w, h)
    ensures exists tree :: && PerfectMaze(tree, w, h)
                           && OnlyOpens(tree, maze, w, h)
                           && OpenCells(maze, w, h) == OpenCells(tree, w, h) + LoopCells(w, h, rand, LoopsFrom(w, h, next), LoopCount(w, h))
                           && |OpenCells(maze, w, h)| <= |OpenCells(tree, w, h)| + LoopCount(w, h)
    ensures BorderIsWall(maze, w, h) && RoomsOpen(maze, w, h)
    ensures RoomsReachable(maze, w, h) && Reachable(maze, w, h, Goal(w, h))
    ensures 2 * |Rooms(w, h)| - 1 <= |OpenCells(maze, w, h)| <= 2 * |Rooms(w, h)| - 1 + LoopCount(w, h)
    ensures HasShape(discovered, w, h)
    ensures forall y, x :: InBounds(w, h, x, y) ==> discovered[y][x] == UNKNOWN
    ensures used == LoopsFrom(w, h, next) + 2 * LoopCount(w, h)
  {
    discovered := Fill(w, h, UNKNOWN);
    var tree: Maze;
    tree, used := Carve(w, h, rand, next);
    ghost var loopsFrom := used;
    maze, used := InjectLoops(tree, w, h, rand, used);
    TreePlusLoops(tree, maze, w, h, rand, next, loopsFrom);
  }

  /** What `GenerateMazeV2` promises about its maze, given the carved tree
      and what loop injection promises about the cells it opens. */
  lemma TreePlusLoops(tree: Maze, maze: Maze, w: int, h: int, rand: Stream, next: nat, loopsFrom: nat)
    requires ValidDims(w, h) && PerfectMaze(tree, w, h) && loopsFrom == LoopsFrom(w, h, next)
    requires HasShape(maze, w, h) && OnlyOpens(tree, maze, w, h)
    requires OpenCells(maze, w, h) == OpenCells(tree, w, h) + LoopCells(w, h, rand, loopsFrom, LoopCount(w, h))
    requires forall y, x :: InBounds(w, h, x, y) && !Interior(w, h, x, y) ==> maze[y][x] == tree[y][x]
    ensures exists tree :: && PerfectMaze(tree, w, h)
                           && OnlyOpens(tree, maze, w, h)
                           && OpenCells(maze, w, h) == OpenCells(tree, w, h) + LoopCells(w, h, rand, LoopsFrom(w, h, next), LoopCount(w, h))
                           && |OpenCells(maze, w, h)| <= |OpenCells(tree, w, h)| + LoopCount(w, h)
    ensures BorderIsWall(maze, w, h) && RoomsOpen(maze, w, h)
    ensures RoomsReachable(maze, w, h) && Reachable(maze, w, h, Goal(w, h))
    ensures 2 * |Rooms(w, h)| - 1 <= |OpenCells(maze, w, h)| <= 2 * |Rooms(w, h)| - 1 + LoopCount(w, h)
  {
    LoopCellsAtMost(w, h, rand, loopsFrom, LoopCount(w, h));
    UnionAtMost(OpenCells(tree, w, h), LoopCells(w, h, rand, loopsFrom, LoopCount(w, h)), LoopCount(w, h));
    LoopsKeepRooms(tree, maze, w, h);
  }

  /** Adding at most `c` elements to a set grows it by at most `c`. */
  lemma UnionAtMost<T>(t: set<T>, l: set<T>, c: int)
    requires |l| <= c
    ensures |t| <= |t + l| <= |t| + c
  {
    assert t + l == t + (l - t);
    assert |t + l| == |t| + |l - t|;
  }

  /** Injected loops only open cells, so every room of the carved maze is
      still open and can still be walked to. */
  lemma LoopsKeepRooms(tree: Maze, maze: Maze, w: int, h: int)
    requires ValidDims(w, h) && PerfectMaze(tree, w, h)
    requires HasShape(maze, w, h) && OnlyOpens(tree, maze, w, h)
    ensures RoomsOpen(maze, w, h)
    ensures RoomsReachable(maze, w, h) && Reachable(maze, w, h, Goal(w, h))
  {
    forall y, x | IsRoom(w, h, x, y) ensures OpenAt(maze, w, h, x, y) && Reachable(maze, w, h, Pos(x, y)) {
      assert OpenAt(tree, w, h, x, y);
      ReachableWidens(tree, maze, w, h, Pos(x, y));
    }
    assert IsRoom(w, h, w - 2, h - 2);
  }

  /** The game's own 31 x 21 grid is a valid carving grid, and the later
      version makes 43 loop attempts on it. */
  lemma GameDimensions()
    ensures ValidDims(MAZE_WIDTH, MAZE_HEIGHT)
    ensures LoopCount(MAZE_WIDTH, MAZE_HEIGHT) == 43
    ensures IsRoom(MAZE_WIDTH, MAZE_HEIGHT, 1, 1) && Goal(MAZE_WIDTH, MAZE_HEIGHT) == Pos(29, 19)
    ensures IsRoom(MAZE_WIDTH, MAZE_HEIGHT, 29, 19)
  {
  }
}

=== FILE: grid.dfy ===
/** The maze and discovery grids shared by both versions of the game.

    A grid is a sequence of rows (`g[y][x]`), exactly as the game stores
    `maze[y][x]`: the maze holds 1 for a wall and 0 for a floor cell, the
    discovery grid additionally holds -1 for a cell the player has not seen. */
module Grid {

  const WALL: int := 1
  const OPEN: int := 0
  const UNKNOWN: int := -1

  /** The dimensions the game is built with. */
  const MAZE_WIDTH: int := 31
  const MAZE_HEIGHT: int := 21

  type Maze = seq<seq<int>>

  datatype Pos = Pos(x: int, y: int)

  /** Carving moves two cells at a time from (1,1), so both sides must be odd. */
  predicate ValidDims(w: int, h: int) {
    3 <= w && 3 <= h && w % 2 == 1 && h % 2 == 1
  }

  ghost predicate HasShape(g: Maze, w: int, h: int) {
    |g| == h && forall y :: 0 <= y < |g| ==> |g[y]| == w
  }

  predicate InBounds(w: int, h: int, x: int, y: int) {
    0 <= x < w && 0 <= y < h
  }

  /** Cells off the outer ring. */
  predicate Interior(w: int, h: int, x: int, y: int) {
    1 <= x <= w - 2 && 1 <= y <= h - 2
  }

  /** A "room": an interior cell with both coordinates odd. The carver only
      ever stands on rooms; the cells between two rooms are passages. */
  predicate IsRoom(w: int, h: int, x: int, y: int) {
    Interior(w, h, x, y) && x % 2 == 1 && y % 2 == 1
  }

  function Start(): Pos { Pos(1, 1) }

  function Goal(w: int, h: int): Pos { Pos(w - 2, h - 2) }

  /** A `w` by `h` grid holding `v` everywhere. */
  function Fill(w: nat, h: nat, v: int): (g: Maze)
    ensures HasShape(g, w, h)
    ensures forall y, x :: InBounds(w, h, x, y) ==> g[y][x] == v
  {
    seq(h, _ => seq(w, _ => v))
  }

  /** `maze[y][x] = v`: one cell changes, every other cell keeps its value. */
  function Set(g: Maze, w: int, h: int, x: int, y: int, v: int): (r: Maze)
    requires HasShape(g, w, h) && InBounds(w, h, x, y)
    ensures HasShape(r, w, h)
    ensures r[y][x] == v
    ensures forall j, i :: InBounds(w, h, i, j) && (i != x || j != y) ==> r[j][i] == g[j][i]
  {
    g[y := g[y][x := v]]
  }

  /** Cell (x, y) exists and is a floor cell. Quantifiers over grids that
      also mention neighbouring cells are triggered on this predicate, so
      that instantiating one cell does not spill over into its neighbours. */
  ghost predicate OpenAt(g: Maze, w: int, h: int, x: int, y: int)
    requires HasShape(g, w, h)
  {
    InBounds(w, h, x, y) && g[y][x] == OPEN
  }

  ghost predicate IsBinary(g: Maze, w: int, h: int)
    requires HasShape(g, w, h)
  {
    forall y, x :: InBounds(w, h, x, y) ==> g[y][x] == WALL || g[y][x] == OPEN
  }

  ghost predicate BorderIsWall(g: Maze, w: int, h: int)
    requires HasShape(g, w, h)
  {
    forall y, x :: InBounds(w, h, x, y) && !Interior(w, h, x, y) ==> g[y][x] == WALL
  }

  /** Every room is a floor cell. */
  ghost predicate RoomsOpen(g: Maze, w: int, h: int)
    requires HasShape(g, w, h)
  {
    forall y, x :: IsRoom(w, h, x, y) ==> g[y][x] == OPEN
  }

  /** Open cells never turn back into walls between `g` and `g'`. */
  ghost predicate OnlyOpens(g: Maze, g': Maze, w: int, h: int)
    requires HasShape(g, w, h) && HasShape(g', w, h)
  {
    forall y, x :: InBounds(w, h, x, y) && g[y][x] == OPEN ==> g'[y][x] == OPEN
  }

  ghost function OpenCells(g: Maze, w: int, h: int): set<Pos>
    requires HasShape(g, w, h)
  {
    set x, y | 0 <= x < w && 0 <= y < h && g[y][x] == OPEN :: Pos(x, y)
  }

  ghost function Rooms(w: int, h: int): set<Pos>
  {
    set x, y | 0 <= x < w && 0 <= y < h && IsRoom(w, h, x, y) :: Pos(x, y)
  }

  ghost function OpenRooms(g: Maze, w: int, h: int): set<Pos>
    requires HasShape(g, w, h)
  {
    set x, y | 0 <= x < w && 0 <= y < h && IsRoom(w, h, x, y) && g[y][x] == OPEN :: Pos(x, y)
  }

  ghost function WallRooms(g: Maze, w: int, h: int): set<Pos>
    requires HasShape(g, w, h)
  {
    set x, y | 0 <= x < w && 0 <= y < h && IsRoom(w, h, x, y) && g[y][x] == WALL :: Pos(x, y)
  }

  lemma OpenCellsMember(g: Maze, w: int, h: int, p: Pos)
    requires HasShape(g, w, h)
    ensures p in OpenCells(g, w, h) <==> InBounds(w, h, p.x, p.y) && g[p.y][p.x] == OPEN
  {
    if InBounds(w, h, p.x, p.y) && g[p.y][p.x] == OPEN {
      assert p == Pos(p.x, p.y);
    }
  }

  /** Opening one cell adds exactly that cell to the open set. */
  lemma OpenCellsAfterOpen(g: Maze, w: int, h: int, x: int, y: int)
    requires HasShape(g, w, h) && InBounds(w, h, x, y)
    ensures OpenCells(Set(g, w, h, x, y, OPEN), w, h) == OpenCells(g, w, h) + {Pos(x, y)}
  {
    var g' := Set(g, w, h, x, y, OPEN);
    forall p | p in OpenCells(g', w, h)
      ensures p in OpenCells(g, w, h) + {Pos(x, y)}
    {
      OpenCellsMember(g', w, h, p);
      OpenCellsMember(g, w, h, p);
    }
    forall p | p in OpenCells(g, w, h) + {Pos(x, y)}
      ensures p in OpenCells(g', w, h)
    {
      OpenCellsMember(g', w, h, p);
      OpenCellsMember(g, w, h, p);
    }
  }

  lemma RoomsMember(w: int, h: int, p: Pos)
    ensures p in Rooms(w, h) <==> InBounds(w, h, p.x, p.y) && IsRoom(w, h, p.x, p.y)
  {
    if InBounds(w, h, p.x, p.y) && IsRoom(w, h, p.x, p.y) {
      assert p == Pos(p.x, p.y);
    }
  }

  lemma OpenRoomsMember(g: Maze, w: int, h: int, p: Pos)
    requires HasShape(g, w, h)
    ensures p in OpenRooms(g, w, h) <==>
              InBounds(w, h, p.x, p.y) && IsRoom(w, h, p.x, p.y) && g[p.y][p.x] == OPEN
  {
    if InBounds(w, h, p.x, p.y) && IsRoom(w, h, p.x, p.y) && g[p.y][p.x] == OPEN {
      assert p == Pos(p.x, p.y);
    }
  }

  lemma WallRoomsMember(g: Maze, w: int, h: int, p: Pos)
    requires HasShape(g, w, h)
    ensures p in WallRooms(g, w, h) <==>
              InBounds(w, h, p.x, p.y) && IsRoom(w, h, p.x, p.y) && g[p.y][p.x] == WALL
  {
    if InBounds(w, h, p.x, p.y) && IsRoom(w, h, p.x, p.y) && g[p.y][p.x] == WALL {
      assert p == Pos(p.x, p.y);
    }
  }

  /** `a` and `b` are one cell apart along one axis, as one step of the
      player is. */
  predicate Touching(a: Pos, b: Pos) {
    || (a.x == b.x && (a.y - b.y == 1 || b.y - a.y == 1))
    || (a.y == b.y && (a.x - b.x == 1 || b.x - a.x == 1))
  }

  /** A walk from the start (1,1) over floor cells, each cell one step from
      the one before. */
  ghost predicate IsWalk(g: Maze, w: int, h: int, p: seq<Pos>)
    requires HasShape(g, w, h)
  {
    && |p| > 0 && p[0] == Start()
    && (forall i :: 0 <= i < |p| ==> OpenAt(g, w, h, p[i].x, p[i].y))
    && (forall i :: 0 < i < |p| ==> Touching(p[i - 1], p[i]))
  }

  /** Cell `q` can be walked to from the start. */
  ghost predicate Reachable(g: Maze, w: int, h: int, q: Pos)
    requires HasShape(g, w, h)
  {
    exists p :: IsWalk(g, w, h, p) && p[|p| - 1] == q
  }

  /** Every open room can be walked to from the start. */
  ghost predicate RoomsReachable(g: Maze, w: int, h: int)
    requires HasShape(g, w, h)
  {
    forall y, x {:trigger OpenAt(g, w, h, x, y)} ::
      IsRoom(w, h, x, y) && OpenAt(g, w, h, x, y) ==> Reachable(g, w, h, Pos(x, y))
  }

  /** Every open cell can be walked to from the start. */
  ghost predicate AllReachable(g: Maze, w: int, h: int)
    requires HasShape(g, w, h)
  {
    forall y, x {:trigger OpenAt(g, w, h, x, y)} ::
      OpenAt(g, w, h, x, y) ==> Reachable(g, w, h, Pos(x, y))
  }

  /** A walk can be continued by one step onto a floor cell. */
  lemma WalkExtends(g: Maze, w: int, h: int, p: seq<Pos>, q: Pos)
    requires HasShape(g, w, h) && IsWalk(g, w, h, p)
    requires Touching(p[|p| - 1], q) && OpenAt(g, w, h, q.x, q.y)
    ensures IsWalk(g, w, h, p + [q])
  {
  }

  /** Opening cells keeps every walk a walk. */
  lemma WalkWidens(g: Maze, g': Maze, w: int, h: int, p: seq<Pos>)
    requires HasShape(g, w, h) && HasShape(g', w, h) && OnlyOpens(g, g', w, h)
    requires IsWalk(g, w, h, p)
    ensures IsWalk(g', w, h, p)
  {
    forall i | 0 <= i < |p| ensures OpenAt(g', w, h, p[i].x, p[i].y) {
      assert OpenAt(g, w, h, p[i].x, p[i].y);
    }
  }

  /** A cell next to a reachable cell, if floor, is reachable. */
  lemma ReachableStep(g: Maze, w: int, h: int, a: Pos, b: Pos)
    requires HasShape(g, w, h) && Reachable(g, w, h, a)
    requires Touching(a, b) && OpenAt(g, w, h, b.x, b.y)
    ensures Reachable(g, w, h, b)
  {
    var p :| IsWalk(g, w, h, p) && p[|p| - 1] == a;
    WalkExtends(g, w, h, p, b);
    assert (p + [b])[|p + [b]| - 1] == b;
  }

  /** Opening cells keeps every reachable cell reachable. */
  lemma ReachableWidens(g: Maze, g': Maze, w: int, h: int, q: Pos)
    requires HasShape(g, w, h) && HasShape(g', w, h) && OnlyOpens(g, g', w, h)
    requires Reachable(g, w, h, q)
    ensures Reachable(g', w, h, q)
  {
    var p :| IsWalk(g, w, h, p) && p[|p| - 1] == q;
    WalkWidens(g, g', w, h, p);
  }

  /** A walk reaches a cell other than the start through one of its four
      neighbours, which is open. */
  lemma ReachableEntered(g: Maze, w: int, h: int, q: Pos)
    requires HasShape(g, w, h) && Reachable(g, w, h, q) && q != Start()
    ensures || OpenAt(g, w, h, q.x - 1, q.y) || OpenAt(g, w, h, q.x + 1, q.y)
            || OpenAt(g, w, h, q.x, q.y - 1) || OpenAt(g, w, h, q.x, q.y + 1)
  {
    var p :| IsWalk(g, w, h, p) && p[|p| - 1] == q;
    var a := p[|p| - 2];
    assert Touching(a, q);
    assert OpenAt(g, w, h, a.x, a.y);
  }

  /** So a cell other than the start whose four neighbours are all closed
      cannot be walked to, whether or not it is open itself. */
  lemma IsolatedCellUnreachable(g: Maze, w: int, h: int, x: int, y: int)
    requires HasShape(g, w, h) && Pos(x, y) != Start()
    requires !OpenAt(g, w, h, x - 1, y) && !OpenAt(g, w, h, x + 1, y)
    requires !OpenAt(g, w, h, x, y - 1) && !OpenAt(g, w, h, x, y + 1)
    ensures !Reachable(g, w, h, Pos(x, y))
  {
    if Reachable(g, w, h, Pos(x, y)) {
      ReachableEntered(g, w, h, Pos(x, y));
    }
  }
}

=== FILE: loops.dfy ===
/** Loop injection, the second half of `generateMaze` in the later version of
    the game: a fixed number of random interior cells are turned from wall to
    floor, which adds cycles (alternative routes) to the perfect maze. */
module Loops {
  import opened Grid
  import opened Oracle

  /** `Math.floor((MAZE_WIDTH * MAZE_HEIGHT) / 15)` attempts: the largest
      count whose fifteen-fold fits in the area. */
  function LoopCount(w: int, h: int): (c: int)
    ensures 15 * c <= w * h < 15 * c + 15
  {
    (w * h) / 15
  }

  /** The cells chosen by the first `k` attempts. */
  ghost function LoopCells(w: int, h: int, rand: Stream, next: nat, k: nat): set<Pos>
    requires ValidDims(w, h)
  {
    set i | 0 <= i < k :: InteriorCell(w, h, rand, next, i)
  }

  lemma LoopCellsStep(w: int, h: int, rand: Stream, next: nat, k: nat)
    requires ValidDims(w, h)
    ensures LoopCells(w, h, rand, next, k + 1) ==
            LoopCells(w, h, rand, next, k) + {InteriorCell(w, h, rand, next, k)}
  {
  }

  /** `k` attempts open at most `k` distinct cells. */
  lemma {:induction false} LoopCellsAtMost(w: int, h: int, rand: Stream, next: nat, k: nat)
    requires ValidDims(w, h)
    ensures |LoopCells(w, h, rand, next, k)| <= k
  {
    if k == 0 {
      assert LoopCells(w, h, rand, next, k) == {};
    } else {
      LoopCellsAtMost(w, h, rand, next, k - 1);
      LoopCellsStep(w, h, rand, next, k - 1);
    }
  }

  /** The loop-injection loop. Exactly `LoopCount(w, h)` attempts are made,
      two draws each; the open cells afterwards are the open cells before
      plus exactly the attempted cells, which are all interior. So open cells
      stay open, the border keeps its walls, and nothing else changes. */
  method InjectLoops(g0: Maze, w: int, h: int, rand: Stream, next: nat) returns (g: Maze, used: nat)
    requires ValidDims(w, h) && HasShape(g0, w, h) && IsBinary(g0, w, h)
    ensures HasShape(g, w, h) && IsBinary(g, w, h)
    ensures used == next + 2 * LoopCount(w, h)
    ensures OpenCells(g, w, h) == OpenCells(g0, w, h) + LoopCells(w, h, rand, next, LoopCount(w, h))
    ensures OnlyOpens(g0, g, w, h)
    ensures forall y, x :: InBounds(w, h, x, y) && !Interior(w, h, x, y) ==> g[y][x] == g0[y][x]
  {
    var loops := (w * h) / 15;
    g := g0;
    used := next;
    var i := 0;
    while i < loops
      invariant 0 <= i <= loops
      invariant used == next + 2 * i
      invariant HasShape(g, w, h) && IsBinary(g, w, h)
      invariant OpenCells(g, w, h) == OpenCells(g0, w, h) + LoopCells(w, h, rand, next, i)
      invariant OnlyOpens(g0, g, w, h)
      invariant forall y, x :: InBounds(w, h, x, y) && !Interior(w, h, x, y) ==> g[y][x] == g0[y][x]
    {
      var x := Pick(rand(used), w - 2) + 1;
      var y := Pick(rand(used + 1), h - 2) + 1;
      assert Pos(x, y) == InteriorCell(w, h, rand, next, i);
      LoopCellsStep(w, h, rand, next, i);
      if g[y][x] == WALL {
        OpenCellsAfterOpen(g, w, h, x, y);
        g := Set(g, w, h, x, y, OPEN);
      } else {
        OpenCellsMember(g, w, h, Pos(x, y));
      }
      used := used + 2;
      i := i + 1;
    }
  }
}

=== FILE: movement.dfy ===
/** The pose update of `handleKeyDown`, identical in both versions of the
    game: a key is mapped to one of four actions; a step forward or backward
    computes a target cell from the heading and is taken only if that cell
    exists and is floor; a turn changes the heading by a quarter. */
module Movement {
  import opened Grid
  import opened Options

  datatype Action = Forward | Backward | TurnLeft | TurnRight

  /** `playerX`, `playerY` and `playerRotation`; the heading is 0 north,
      1 east, 2 south, 3 west, and y grows southwards. */
  datatype Pose = Pose(x: int, y: int, rot: int)

  function StartPose(): Pose { Pose(1, 1, 0) }

  /** The player stands on the goal cell (w-2, h-2), whatever the heading. */
  predicate AtGoal(w: int, h: int, p: Pose)
  {
    Pos(p.x, p.y) == Goal(w, h)
  }

  /** The first version reacts to `w`, `s`, `a` and `d` only. */
  function KeyActionV1(key: string): (r: Option<Action>)
    ensures r.Some? <==> key in {"w", "s", "a", "d"}
  {
    match key
    case "w" => Some(Forward)
    case "s" => Some(Backward)
    case "a" => Some(TurnLeft)
    case "d" => Some(TurnRight)
    case _ => None
  }

  /** The later version also accepts the arrow keys. */
  function KeyActionV2(key: string): (r: Option<Action>)
    ensures r.Some? <==> key in {"w", "s", "a", "d", "ArrowUp", "ArrowDown", "ArrowLeft", "ArrowRight"}
  {
    match key
    case "w" => Some(Forward)
    case "ArrowUp" => Some(Forward)
    case "s" => Some(Backward)
    case "ArrowDown" => Some(Backward)
    case "a" => Some(TurnLeft)
    case "ArrowLeft" => Some(TurnLeft)
    case "d" => Some(TurnRight)
    case "ArrowRight" => Some(TurnRight)
    case _ => None
  }

  /** Every key of the first version means the same in the later one, and
      the later one adds exactly the four arrow keys. */
  lemma KeyActionV2Extends(key: string)
    ensures KeyActionV1(key).Some? ==> KeyActionV2(key) == KeyActionV1(key)
    ensures KeyActionV2(key).Some? && KeyActionV1(key).None? <==>
              key in {"ArrowUp", "ArrowDown", "ArrowLeft", "ArrowRight"}
  {
  }

  /** The displacement of `w` for each heading; a heading outside 0..3
      matches none of the four tests and leaves the target where it is. */
  function Ahead(rot: int): (r: Pos)
    ensures 0 <= rot < 4 <==> Touching(Pos(0, 0), r)
    ensures !(0 <= rot < 4) ==> r == Pos(0, 0)
  {
    if rot == 0 then Pos(0, -1)
    else if rot == 1 then Pos(1, 0)
    else if rot == 2 then Pos(0, 1)
    else if rot == 3 then Pos(-1, 0)
    else Pos(0, 0)
  }

  /** The displacement of `s`, written out per heading as the game does. */
  function Behind(rot: int): (r: Pos)
    ensures 0 <= rot < 4 <==> Touching(Pos(0, 0), r)
    ensures !(0 <= rot < 4) ==> r == Pos(0, 0)
  {
    if rot == 0 then Pos(0, 1)
    else if rot == 1 then Pos(-1, 0)
    else if rot == 2 then Pos(0, -1)
    else if rot == 3 then Pos(1, 0)
    else Pos(0, 0)
  }

  /** JavaScript's `% 4`, whose result takes the sign of the dividend: it
      differs from `a` by a multiple of 4 and is smaller than 4 in
      magnitude. */
  function JsRem4(a: int): (r: int)
    ensures 0 <= a ==> 0 <= r < 4
    ensures a < 0 ==> -4 < r <= 0
    ensures (a - r) % 4 == 0
  {
    if a >= 0 then a % 4 else -((-a) % 4)
  }

  /** `targetX`, `targetY` and `targetRotation` for an action: for a
      heading in 0..3 a step aims at a neighbouring cell without turning, and
      a turn aims at the player's own cell with a different heading in 0..3. */
  function Target(p: Pose, a: Action): (r: Pose)
    ensures a.Forward? || a.Backward? ==>
              && r.rot == p.rot
              && (0 <= p.rot < 4 <==> Touching(Pos(p.x, p.y), Pos(r.x, r.y)))
    ensures a.TurnLeft? || a.TurnRight? ==>
              && r.x == p.x && r.y == p.y
              && (0 <= p.rot < 4 ==> 0 <= r.rot < 4 && r.rot != p.rot)
  {
    match a
    case Forward => Pose(p.x + Ahead(p.rot).x, p.y + Ahead(p.rot).y, p.rot)
    case Backward => Pose(p.x + Behind(p.rot).x, p.y + Behind(p.rot).y, p.rot)
    case TurnLeft => Pose(p.x, p.y, JsRem4(p.rot + 3))
    case TurnRight => Pose(p.x, p.y, JsRem4(p.rot + 1))
  }

  /** JavaScript's `a[i]` on an array: the element, or None (`undefined`)
      for an index outside the array. */
  function JsAt<T>(a: seq<T>, i: int): (r: Option<T>)
    ensures r.Some? <==> 0 <= i < |a|
    ensures r.Some? ==> r.value == a[i]
  {
    if 0 <= i < |a| then Some(a[i]) else None
  }

  /** `maze[targetY] && maze[targetY][targetX] === 0`: the row is not
      `undefined` and the value in it is `0`. This is exactly a floor cell
      inside the grid. */
  predicate Passable(maze: Maze, w: int, h: int, x: int, y: int)
    requires HasShape(maze, w, h)
    ensures Passable(maze, w, h, x, y) <==> OpenAt(maze, w, h, x, y)
  {
    JsAt(maze, y).Some? && JsAt(JsAt(maze, y).value, x) == Some(OPEN)
  }

  /** The pose after one action. The player only ever arrives on a passable
      cell, so a player on the floor stays on the floor; a step never turns,
      a turn never moves, and the heading stays in 0..3. */
  function Move(maze: Maze, w: int, h: int, p: Pose, a: Action): (r: Pose)
    requires HasShape(maze, w, h)
    ensures (r.x, r.y) != (p.x, p.y) ==> Passable(maze, w, h, r.x, r.y)
    ensures Passable(maze, w, h, p.x, p.y) ==> Passable(maze, w, h, r.x, r.y)
    ensures a.Forward? || a.Backward? ==> r.rot == p.rot
    ensures a.TurnLeft? || a.TurnRight? ==> r.x == p.x && r.y == p.y
    ensures 0 <= p.rot < 4 ==> 0 <= r.rot < 4
  {
    var t := Target(p, a);
    if Passable(maze, w, h, t.x, t.y) then Pose(t.x, t.y, t.rot) else Pose(p.x, p.y, t.rot)
  }

  /** The `s` displacement is the negation of the `w` displacement for every
      heading. */
  lemma BehindIsNegatedAhead(rot: int)
    ensures Behind(rot) == Pos(-Ahead(rot).x, -Ahead(rot).y)
  {
  }

  /** A step is taken exactly when its target cell is passable. */
  lemma StepTakenIff(maze: Maze, w: int, h: int, p: Pose, a: Action)
    requires HasShape(maze, w, h) && 0 <= p.rot < 4
    requires a.Forward? || a.Backward?
    ensures var r := Move(maze, w, h, p, a);
      var t := Target(p, a);
      && ((r.x, r.y) != (p.x, p.y) <==> Passable(maze, w, h, t.x, t.y))
      && ((r.x, r.y) == (t.x, t.y) <==> Passable(maze, w, h, t.x, t.y))
  {
  }

  /** Turning right turns the step forward a quarter clockwise (y grows
      southwards). */
  lemma AheadTurnsClockwise(rot: int)
    requires 0 <= rot < 4
    ensures Ahead((rot + 1) % 4) == Pos(-Ahead(rot).y, Ahead(rot).x)
  {
  }

  /** Different headings step in different directions. */
  lemma AheadDistinct(rot: int, rot': int)
    requires 0 <= rot < 4 && 0 <= rot' < 4 && Ahead(rot) == Ahead(rot')
    ensures rot == rot'
  {
  }

  /** A step forward that was taken is undone by a step backward. */
  lemma ForwardThenBackward(maze: Maze, w: int, h: int, p: Pose)
    requires HasShape(maze, w, h) && 0 <= p.rot < 4
    requires Passable(maze, w, h, p.x, p.y)
    requires Passable(maze, w, h, Target(p, Forward).x, Target(p, Forward).y)
    ensures Move(maze, w, h, Move(maze, w, h, p, Forward), Backward) == p
  {
    BehindIsNegatedAhead(p.rot);
  }

  /** A step backward that was taken is undone by a step forward. */
  lemma BackwardThenForward(maze: Maze, w: int, h: int, p: Pose)
    requires HasShape(maze, w, h) && 0 <= p.rot < 4
    requires Passable(maze, w, h, p.x, p.y)
    requires Passable(maze, w, h, Target(p, Backward).x, Target(p, Backward).y)
    ensures Move(maze, w, h, Move(maze, w, h, p, Backward), Forward) == p
  {
    BehindIsNegatedAhead(p.rot);
  }

  /** A key press moves the player by at most one cell, along one axis. */
  lemma MoveAtMostOneCell(maze: Maze, w: int, h: int, p: Pose, a: Action)
    requires HasShape(maze, w, h)
    ensures var r := Move(maze, w, h, p, a);
      (r.x == p.x && -1 <= r.y - p.y <= 1) || (r.y == p.y && -1 <= r.x - p.x <= 1)
  {
  }

  /** Moving keeps the player on cells that can be walked to from the start:
      every key press extends the player's walk by at most one step. */
  lemma MoveKeepsReachable(maze: Maze, w: int, h: int, p: Pose, a: Action)
    requires HasShape(maze, w, h) && Reachable(maze, w, h, Pos(p.x, p.y))
    ensures var r := Move(maze, w, h, p, a);
      Reachable(maze, w, h, Pos(r.x, r.y))
  {
    var r := Move(maze, w, h, p, a);
    if (r.x, r.y) != (p.x, p.y) {
      MoveAtMostOneCell(maze, w, h, p, a);
      assert OpenAt(maze, w, h, r.x, r.y);
      ReachableStep(maze, w, h, Pos(p.x, p.y), Pos(r.x, r.y));
    }
  }

  /** `a` then `d` (and `d` then `a`) restores the pose. */
  lemma TurnsCancel(maze: Maze, w: int, h: int, p: Pose)
    requires HasShape(maze, w, h) && 0 <= p.rot < 4
    ensures Move(maze, w, h, Move(maze, w, h, p, TurnLeft), TurnRight) == p
    ensures Move(maze, w, h, Move(maze, w, h, p, TurnRight), TurnLeft) == p
  {
  }

  /** The two turns move the heading a quarter either way. */
  lemma TurnHeadings(maze: Maze, w: int, h: int, p: Pose)
    requires HasShape(maze, w, h) && 0 <= p.rot < 4
    ensures Move(maze, w, h, p, TurnLeft).rot == (p.rot + 3) % 4
    ensures Move(maze, w, h, p, TurnRight).rot == (p.rot + 1) % 4
    ensures Move(maze, w, h, p, TurnLeft).rot != p.rot
  {
  }
}

=== FILE: options.dfy ===
/** An optional value: `None` where the game returns early or produces
    nothing. */
module Options {

  datatype Option<+T> = None | Some(value: T)
}

=== FILE: oracle.dfy ===
/** The game's only source of choice is `Math.random()`, a value in [0, 1),
    always used as `Math.floor(Math.random() * n)` to choose one of `n`
    options. The model receives the random values as a stream `rand`, read
    in the order the game's own code calls `Math.random()`, so every
    property proved for all streams holds for every choice the game can
    make. Three.js also calls `Math.random()` for the ids of the objects it
    creates (walls, floor, gems, materials); those draws are not in the
    stream, so an index into `rand` counts the game's draws only. */
module Oracle {
  import opened Grid

  type Draw = r: real | 0.0 <= r < 1.0

  /** A stream of random values, indexed by how many have been used so far. */
  type Stream = nat -> Draw

  /** `Math.floor(r * n)`: the index of the option chosen by the draw `r`. */
  function Pick(r: Draw, n: int): (i: int)
    requires 0 < n
    ensures 0 <= i < n
  {
    ProductBelow(r, n as real);
    (r * n as real).Floor
  }

  lemma ProductBelow(r: real, n: real)
    requires 0.0 <= r < 1.0 && 0.0 < n
    ensures r * n < n
  {
    assert n - r * n == (1.0 - r) * n;
  }

  /** Every option is reachable: the draw i/n chooses option i, so a property
      proved for every stream covers every sequence of choices. */
  lemma PickReachesEveryIndex(n: int, i: int)
    requires 0 <= i < n
    ensures 0.0 <= i as real / n as real < 1.0
    ensures Pick(i as real / n as real, n) == i
  {
    var r := i as real / n as real;
    assert r * n as real == i as real;
  }

  /** The interior cell chosen by two consecutive draws, attempt `i` of a
      loop that starts at draw `n`: x from draw `n + 2i` among the `w - 2`
      interior columns, then y from the following draw among the `h - 2`
      interior rows. Both loop injection and gem placement choose cells
      this way. */
  function InteriorCell(w: int, h: int, rand: Stream, n: nat, i: nat): (p: Pos)
    requires ValidDims(w, h)
    ensures Interior(w, h, p.x, p.y)
  {
    Pos(Pick(rand(n + 2 * i), w - 2) + 1, Pick(rand(n + 2 * i + 1), h - 2) + 1)
  }
}

=== FILE: timing.dfy ===
/** The timing side of the later version of the game: the best-time record
    kept by `checkGoal`, and `formatTime`, which renders milliseconds as
    `mm:ss`. */
module Timing {
  import opened Options

  /** A time in milliseconds, or the `Infinity` the best time starts from
      when none has been stored. */
  datatype Duration = Infinity | Ms(ms: nat)

  /** The order of durations, `Infinity` above every number. */
  predicate AtMost(a: Duration, b: Duration)
  {
    b.Infinity? || (a.Ms? && a.ms <= b.ms)
  }

  /** `elapsedTime < bestTime`. Before the first timer tick `elapsedTime` is
      `undefined`, and `undefined < x` is false for every `x`. */
  predicate Beats(elapsed: Option<nat>, best: Duration)
  {
    elapsed.Some? && (best.Infinity? || elapsed.value < best.ms)
  }

  /** The record step of `checkGoal`: the new best time and whether this run
      set a new record. A record is set exactly when the elapsed time is
      strictly below the best, and then the best becomes the elapsed time;
      otherwise the best is untouched. The best time never gets worse. */
  function RecordIfBest(elapsed: Option<nat>, best: Duration): (r: (Duration, bool))
    ensures r.1 <==> Beats(elapsed, best)
    ensures r.1 ==> r.0 == Ms(elapsed.value)
    ensures !r.1 ==> r.0 == best
    ensures AtMost(r.0, best)
  {
    if Beats(elapsed, best) then (Ms(elapsed.value), true) else (best, false)
  }

  /** Arriving at the goal again with the same elapsed time never counts as
      a second record: the comparison is strict. */
  lemma RecordNotRepeated(elapsed: Option<nat>, best: Duration)
    ensures !RecordIfBest(elapsed, RecordIfBest(elapsed, best).0).1
  {
  }

  /** The best time after a series of finished runs with the given times. */
  function BestAfter(best: Duration, times: seq<nat>): Duration
    decreases |times|
  {
    if |times| == 0 then best
    else BestAfter(RecordIfBest(Some(times[0]), best).0, times[1..])
  }

  /** The smallest of a non-empty list of times. */
  function MinOf(times: seq<nat>): (m: nat)
    requires |times| > 0
    ensures m in times
    ensures forall i :: 0 <= i < |times| ==> m <= times[i]
  {
    if |times| == 1 then times[0]
    else
      var rest := MinOf(times[1..]);
      if times[0] <= rest then times[0] else rest
  }

  /** Starting from no record, the best time after a series of runs is the
      fastest run. */
  lemma {:induction false} BestIsFastest(best: Duration, times: seq<nat>)
    requires |times| > 0
    ensures BestAfter(best, times) == if AtMost(best, Ms(MinOf(times))) then best else Ms(MinOf(times))
    decreases |times|
  {
    if |times| > 1 {
      var b := RecordIfBest(Some(times[0]), best).0;
      BestIsFastest(b, times[1..]);
    }
  }

  lemma BestFromNothing(times: seq<nat>)
    requires |times| > 0
    ensures BestAfter(Infinity, times) == Ms(MinOf(times))
  {
    BestIsFastest(Infinity, times);
  }

  /** Runs of 5000, 6000 and 4000 ms leave 4000 as the best; only the first
      and the third set a record. */
  lemma RecordScenario()
    ensures RecordIfBest(Some(5000), Infinity) == (Ms(5000), true)
    ensures RecordIfBest(Some(6000), Ms(5000)) == (Ms(5000), false)
    ensures RecordIfBest(Some(4000), Ms(5000)) == (Ms(4000), true)
    ensures BestAfter(Infinity, [5000, 6000, 4000]) == Ms(4000)
  {
    BestFromNothing([5000, 6000, 4000]);
  }

  predicate IsDigit(c: char)
  {
    '0' <= c <= '9'
  }

  predicate AllDigits(s: string)
  {
    forall i :: 0 <= i < |s| ==> IsDigit(s[i])
  }

  function DigitChar(d: nat): (c: char)
    requires d < 10
    ensures IsDigit(c)
  {
    ('0' as int + d) as char
  }

  /** The number a string of decimal digits denotes, leading zeros allowed. */
  function DigitsValue(s: string): nat
    requires AllDigits(s)
  {
    if |s| == 0 then 0
    else DigitsValue(s[..|s| - 1]) * 10 + (s[|s| - 1] as int - '0' as int)
  }

  /** `String(n)` for a natural number: its decimal digits without leading
      zeros. */
  function Decimal(n: nat): (s: string)
    ensures 0 < |s| && AllDigits(s)
    ensures |s| == 1 || s[0] != '0'
    ensures n < 10 <==> |s| == 1
  {
    if n < 10 then [DigitChar(n)]
    else Decimal(n / 10) + [DigitChar(n % 10)]
  }

  /** Reading back what `Decimal` wrote gives the number. */
  lemma {:induction false} DecimalRoundTrip(n: nat)
    ensures DigitsValue(Decimal(n)) == n
  {
    if n >= 10 {
      DecimalRoundTrip(n / 10);
      var s := Decimal(n);
      assert s[..|s| - 1] == Decimal(n / 10);
    }
  }

  /** Numbers below 100 have at most two digits, larger ones more. */
  lemma DecimalWidth(n: nat)
    ensures n < 100 <==> |Decimal(n)| <= 2
  {
    if n >= 10 {
      assert |Decimal(n)| == |Decimal(n / 10)| + 1;
    }
  }

  /** `padStart(2, '0')`: a string shorter than two characters gets zeros in
      front until it has two; a longer one is left as it is. */
  function PadStart2(s: string): (r: string)
    ensures |r| == if |s| < 2 then 2 else |s|
    ensures r[|r| - |s|..] == s
    ensures forall i :: 0 <= i < |r| - |s| ==> r[i] == '0'
  {
    if |s| >= 2 then s
    else if |s| == 1 then ['0'] + s
    else "00"
  }

  lemma {:induction false} DigitsValueLeadingZero(s: string)
    requires AllDigits(s)
    ensures AllDigits(['0'] + s) && DigitsValue(['0'] + s) == DigitsValue(s)
    decreases |s|
  {
    var t := ['0'] + s;
    assert AllDigits(t) by {
      forall i | 0 <= i < |t| ensures IsDigit(t[i]) {
        if i > 0 { assert t[i] == s[i - 1]; }
      }
    }
    if |s| > 0 {
      assert t[..|t| - 1] == ['0'] + s[..|s| - 1];
      DigitsValueLeadingZero(s[..|s| - 1]);
    } else {
      assert t[..|t| - 1] == [];
    }
  }

  /** A two-digit field: `String(n).padStart(2, '0')` reads back as `n`. It
      is exactly two characters wide for numbers below 100, and a wider one
      has no leading zero. */
  function Field(n: nat): (r: string)
    ensures 2 <= |r| && AllDigits(r)
    ensures DigitsValue(r) == n
    ensures |r| == 2 <==> n < 100
    ensures |r| == 2 || r[0] != '0'
  {
    var s := Decimal(n);
    DecimalRoundTrip(n);
    DecimalWidth(n);
    if |s| == 1 then
      DigitsValueLeadingZero(s);
      PadStart2(s)
    else
      PadStart2(s)
  }

  function MinutesOf(ms: nat): nat { ms / 60000 }

  function SecondsOf(ms: nat): nat { (ms % 60000) / 1000 }

  /** The seconds field never reaches a minute. */
  lemma SecondsBelowMinute(ms: nat)
    ensures SecondsOf(ms) < 60
  {
    assert ms % 60000 < 60 * 1000;
  }

  /** `r` is a clock text for `mins` minutes and `secs` seconds: the
      minutes field, a colon and a two-digit seconds field, each reading back
      as its number. The minutes field is exactly two digits below 100
      minutes and has no leading zero beyond that. */
  ghost predicate ShowsClock(r: string, mins: nat, secs: nat)
  {
    && 5 <= |r| && r[|r| - 3] == ':'
    && AllDigits(r[..|r| - 3]) && AllDigits(r[|r| - 2..])
    && DigitsValue(r[..|r| - 3]) == mins && DigitsValue(r[|r| - 2..]) == secs
    && (|r| == 5 <==> mins < 100)
    && (|r| == 5 || r[0] != '0')
  }

  /** `formatTime`: `--:--` for the infinite best time, otherwise minutes
      and seconds, each at least two digits wide, joined by a colon, showing
      the whole minutes and the seconds below a minute. */
  function FormatTime(t: Duration): (r: string)
    ensures t.Infinity? ==> r == "--:--"
    ensures t.Ms? ==> SecondsOf(t.ms) < 60 && ShowsClock(r, MinutesOf(t.ms), SecondsOf(t.ms))
  {
    match t
    case Infinity => "--:--"
    case Ms(ms) =>
      assert SecondsOf(ms) < 60 by { SecondsBelowMinute(ms); }
      Clock(MinutesOf(ms), SecondsOf(ms))
  }

  /** Minutes and seconds as two fields joined by a colon. */
  function Clock(mins: nat, secs: nat): (r: string)
    requires secs < 60
    ensures ShowsClock(r, mins, secs)
  {
    var m, s := Field(mins), Field(secs);
    var r := m + ":" + s;
    assert r[..|r| - 3] == m && r[|r| - 2..] == s && |r| == |m| + 3 && r[0] == m[0] && r[|r| - 3] == ':' by {
      JoinFields(m, s);
    }
    r
  }

  /** Joining two fields with a colon: the colon is third from the end and
      the fields can be cut back out around it. */
  lemma JoinFields(m: string, s: string)
    requires |s| == 2
    ensures var r := m + ":" + s;
      && |r| == |m| + 3 && r[|r| - 3] == ':'
      && r[..|r| - 3] == m && r[|r| - 2..] == s
      && (0 < |m| ==> r[0] == m[0])
  {
    var r := m + ":" + s;
    assert r[..|r| - 3] == m;
    assert r[|r| - 2..] == s;
  }

  /** `formatTime(elapsedTime)` in the goal message. An elapsed time that
      is still `undefined` is not `Infinity`; it divides to `NaN` in both
      fields, `String(NaN)` is `"NaN"`, and `padStart(2, '0')` leaves three
      characters as they are. */
  function FormatElapsed(elapsed: Option<nat>): (r: string)
    ensures elapsed.None? ==> r == "NaN:NaN"
    ensures elapsed.Some? ==>
              && SecondsOf(elapsed.value) < 60
              && ShowsClock(r, MinutesOf(elapsed.value), SecondsOf(elapsed.value))
  {
    match elapsed
    case None =>
      var field := PadStart2("NaN");
      field + ":" + field
    case Some(ms) => FormatTime(Ms(ms))
  }

  /** Whole seconds are whole minutes times sixty plus the seconds shown. */
  lemma SecondsSplit(ms: nat)
    ensures ms / 1000 == 60 * MinutesOf(ms) + SecondsOf(ms)
  {
  }

  /** Two times in the same whole second display alike. */
  lemma SameSecondSameText(a: nat, b: nat)
    requires a / 1000 == b / 1000
    ensures FormatTime(Ms(a)) == FormatTime(Ms(b))
  {
    SecondsSplit(a);
    SecondsSplit(b);
    assert MinutesOf(a) == MinutesOf(b);
    assert SecondsOf(a) == SecondsOf(b);
  }

  /** Two times that display alike fall in the same whole second: the text
      reads back as minutes and seconds. */
  lemma SameTextSameSecond(a: nat, b: nat)
    requires FormatTime(Ms(a)) == FormatTime(Ms(b))
    ensures a / 1000 == b / 1000
  {
    TextGivesFields(a, b);
    SecondsSplit(a);
    SecondsSplit(b);
  }

  lemma TextGivesFields(a: nat, b: nat)
    requires FormatTime(Ms(a)) == FormatTime(Ms(b))
    ensures MinutesOf(a) == MinutesOf(b) && SecondsOf(a) == SecondsOf(b)
  {
    var r := FormatTime(Ms(a));
    assert ShowsClock(r, MinutesOf(a), SecondsOf(a)) && ShowsClock(r, MinutesOf(b), SecondsOf(b));
    ClockReadsBack(r, MinutesOf(a), SecondsOf(a), MinutesOf(b), SecondsOf(b));
  }

  /** A clock text shows one time only. */
  lemma ClockReadsBack(r: string, m: nat, s: nat, m': nat, s': nat)
    requires ShowsClock(r, m, s) && ShowsClock(r, m', s')
    ensures m == m' && s == s'
  {
  }

  /** Two times display the same exactly when they fall in the same whole
      second. */
  lemma FormatTimeSameSecond(a: nat, b: nat)
    ensures FormatTime(Ms(a)) == FormatTime(Ms(b)) <==> a / 1000 == b / 1000
  {
    if a / 1000 == b / 1000 {
      SameSecondSameText(a, b);
    }
    if FormatTime(Ms(a)) == FormatTime(Ms(b)) {
      SameTextSameSecond(a, b);
    }
  }

  /** 75,500 ms is one minute and fifteen seconds. */
  lemma FormatTimeExample()
    ensures FormatTime(Ms(75500)) == "01:15"
    ensures FormatTime(Infinity) == "--:--"
  {
    assert MinutesOf(75500) == 1 && SecondsOf(75500) == 15;
    assert Decimal(1) == "1";
    assert Decimal(5) == "5";
    assert Decimal(15) == "15";
    assert Field(1) == "01";
    assert Field(15) == "15";
  }
}
